=== FILE: README.md ===
# fire-rules-eng core, modelled in Dafny

This project models the pure logic around the fire-risk rules service, which serves versioned rule sets over HTTP:

- **Version catalog.** Rule-set versions are the digit-named sub-directories of the rules base directory. They are listed newest (numerically largest) first, and "latest" is the head of that list.
- **Evaluation orchestration.** `RulesService.evaluate_fire_risk` resolves the version and loads `base/<version>/fire_risk.json`. It compiles the file with the decision engine and evaluates one observation or a list of observations. For a list, it adds up the engine's microsecond measurements. It wraps every failure as `RuntimeError("Failed to evaluate rules: ...")`.
- **HTTP handlers.** The `/rules/latest` and `/rules/version/<version>` handlers validate the request in a fixed order. A valid request is answered with a fixed envelope. An exception is mapped to a status code by its kind. The `/rules/versions` handler returns the catalog.
- **Submission client.** `FireMitigationService` normalises its base URL and picks the endpoint. It rejects an empty submission before any network call. It concatenates window, attic and roof observations, and falls back to three sample observations when there are none.
- **Greetings.** The in-memory greeting repository (ids assigned on save, insertion-ordered listing) and the greeting service (message validation and stripping).

The foreign collaborators are parameters:

- the decision engine is `RulesService.Engine`, a pair of functions for `create_decision` and `evaluate` that may fail;
- the filesystem is `RulesService.RuleRepo`: a directory listing (`VersionCatalog.Listing`) and a map from full path to file content;
- the network is `FireMitigation.Network`, an oracle that maps an endpoint and payload to a post outcome;
- the clock is a `now` string already in ISO form;
- the id supply is a `freshId` string.

Everything is an immutable datatype and a pure function. The greeting store is a value threaded through `Save`. JSON values are `Json.Json`. Python exceptions are `Wrappers.Exc`, and operations that raise return `Wrappers.Result`.

Files: `wrappers.dfy`, `json.dfy`, `text.dfy` (digit strings, `in`, `replace`, `strip`, `rstrip`), `version_catalog.dfy`, `performance.dfy`, `rules_service.dfy`, `rules_controller.dfy`, `fire_mitigation.dfy`, `greeting_repository.dfy`, `greeting_service.dfy`.

Behaviour of the code worth noting, where a reader might expect otherwise:

- **Unknown version.** A version with no rules file, or no version at all, is a `RuntimeError` answered with 500. There is no distinct not-found or no-versions error (`RulesController.UnknownVersionIs500`, `RulesService.NoVersionFails`).
- **Mixed units.** A measurement without `µs` is skipped silently rather than rejected (`Performance.Contribution`).
- **Client errors.** Transport failures and undecodable responses are both `RuntimeError`, told apart only by their message prefix.
- **Non-object bodies.** A JSON body that is not an object is answered with 500 "Internal server error: ...", not 400, whenever Python's `'observations' in data` or `data['observations']` raises (`RulesController.NonObjectBodyIs500`, `RulesController.ListBodyResponse`, `RulesController.StringBodyResponse`). Cases: `null`, a number, a boolean, a list holding the string `"observations"`, or a string containing `observations`.
- **Malformed JSON.** A body that is not valid JSON raises Flask's `BadRequest` inside the handler's `try`, which the handler answers with 500 (`RulesController.MalformedBodyIs500`).

## Model

| member | source | states |
|---|---|---|
| VersionCatalog.VersionNames | src/application/services/rules_service.py:28-31 | a name is kept exactly when some listing entry with that name is a directory and its name is all ASCII digits |
| VersionCatalog.VersionNamesAppend | src/application/services/rules_service.py:28-31 | the kept names follow the listing: the names of a concatenation are the names of its parts, in order |
| VersionCatalog.VersionNamesSingle | src/application/services/rules_service.py:30-31 | one entry keeps its name exactly when it is a digit-named directory |
| VersionCatalog.SortDesc | src/application/services/rules_service.py:33 | the sorted versions are a permutation of the input, ordered by integer value, non-increasing |
| VersionCatalog.SortDescStable | src/application/services/rules_service.py:33 | the sort is stable: versions with the same integer value (`7`, `07`) keep their listing order, as Python's `sorted(..., reverse=True)` does |
| VersionCatalog.AvailableVersions | src/application/services/rules_service.py:21-35 | a missing or unreadable base directory gives `[]`, never an error; otherwise the result holds exactly the digit-named directories, as a permutation of the kept names, numerically non-increasing |
| VersionCatalog.NonVersionEntriesIgnored | src/application/services/rules_service.py:28-31 | an entry that is a file or has a non-digit name changes nothing in the listing, wherever it stands among the other entries |
| VersionCatalog.LatestVersion | src/application/services/rules_service.py:37-40 | `None` exactly when the listing is empty; otherwise the head of the listing, whose integer value is the maximum |
| Text.NatToString | src/presentation/controllers/rules_controller.py:57 | `str(i)` is a canonical digit string whose value is `i` |
| Text.RenderParse | src/application/services/rules_service.py:85 | reading a canonical digit string and rendering it back gives the same string (the converse of `NatToString`) |
| Text.ContainsAt | src/application/services/rules_service.py:84 | an occurrence of the piece at any position makes Python's `in` true |
| Text.Find | src/application/services/rules_service.py:84 | where `in` is true, the piece occurs at the returned position and at no earlier one |
| Text.ContainsIff | src/application/services/rules_service.py:84 | Python's `in` on strings holds exactly when the piece occurs at some position |
| Text.RemoveAllEffect | src/application/services/rules_service.py:85 | `replace(p, '')` leaves text without `p` unchanged and removes at least `len(p)` characters from text with it |
| Performance.Contribution | src/application/services/rules_service.py:83-86 | a measurement without `µs` contributes 0 and is not rejected; a failure means `µs` was present and the text left after removing every `µs` is no number; a success with `µs` is the number that text reads as |
| Performance.ParseTenths | src/application/services/rules_service.py:85 | `float()` on digits gives their value; any text it reads starts and ends with a digit, and one with a point has it before the last digit |
| Performance.OneDecimalContributes | src/application/services/rules_service.py:83-86 | every `ddd.dµs` measurement contributes its value in tenths |
| Performance.WholeContributes | src/application/services/rules_service.py:83-86 | every `dddµs` measurement contributes its value in tenths |
| Performance.NonNumberFails | src/application/services/rules_service.py:84-85 | a `µs` measurement whose number part is no number is the `ValueError` of `float()` naming that part |
| Performance.BareUnitFails | src/application/services/rules_service.py:83-86 | a measurement holding `µs` but no room for a number leaves an empty number part, and `float('')` gives its `ValueError` |
| Performance.Render | src/application/services/rules_service.py:89 | `:.1f` then `µs`: the whole microseconds without leading zeros, a point, the tenths digit, and the unit |
| Performance.MissingContributesZero | src/application/services/rules_service.py:83 | a missing measurement defaults to `0µs` and contributes 0 |
| Performance.RenderRoundTrip | src/application/services/rules_service.py:84-89 | the one-decimal `µs` rendering of a total contains `µs` and reads back to the same total |
| Performance.ParseRender | src/application/services/rules_service.py:85-89 | the number part of the rendering parses back to the duration it renders |
| Performance.CanonicalMeasurementReproduced | src/application/services/rules_service.py:83-89 | a canonical one-decimal measurement, read and rendered again as the total of a batch of one, is reproduced exactly |
| Performance.ExampleAggregate | src/application/services/rules_service.py:83-89 | `10.0µs`, `5.5µs` and `0.2µs` contribute 100, 55 and 2 tenths and aggregate to `15.7µs` |
| RulesService.RulePathLayout | src/application/services/rules_service.py:50 | for a plain base directory and a slash-free version, the rules file is `base/version/fire_risk.json` |
| RulesService.PathJoin | src/application/services/rules_service.py:50 | `posixpath.join`: an absolute second part replaces the first; otherwise the first part, a `/` only when it is non-empty and does not end with one, then the second part |
| RulesService.ResolveVersion | src/application/services/rules_service.py:62-64 | the requested version when given, else the latest version, else none |
| RulesService.LoadRules | src/application/services/rules_service.py:42-56 | succeeds exactly when a version resolves and its rules file exists, returning that file's content; otherwise `FileNotFoundError`, with "No rule versions available" when no version resolves and the message naming the version and path when the file is missing |
| RulesService.Prepare | src/application/services/rules_service.py:67-70 | a load failure gives its message; after a load the result is `create_decision` on exactly the loaded content, failure included |
| RulesService.EvaluateOne | src/application/services/rules_service.py:79-86 | an engine failure is passed on; an engine success gives its `result` (or `{}`) with the measurement's contribution, or the contribution's error when the measurement is unreadable |
| RulesService.EvaluateAll | src/application/services/rules_service.py:73-88 | the batch succeeds exactly when every observation does; the results then have the input's length and order, element i being observation i's result; otherwise the error is the one of the first failing observation |
| RulesService.EvaluateAllTotal | src/application/services/rules_service.py:76-86 | the batch total is the sum of the per-observation contributions |
| RulesService.BatchSucceedsWhenReadable | src/application/services/rules_service.py:73-88 | a list whose every observation the engine evaluates with a readable measurement is evaluated as a whole |
| RulesService.Evaluate | src/application/services/rules_service.py:60-95 | a load or compile failure is the result; a list gives a list of the same length; a failing list fails with the first failing observation's error; a single observation the engine rejects fails with the engine's error |
| RulesService.EvaluateFireRisk | src/application/services/rules_service.py:58-104 | fails exactly when the evaluation raises, with `RuntimeError("Failed to evaluate rules: " + str(e))` for the raised error `e`; a success carries the version actually used as `api_version`, the caller's request id unchanged and the clock's reading |
| RulesService.EvaluateSucceedsIff | src/application/services/rules_service.py:60-104 | an evaluation succeeds exactly when a version resolves, its rules file exists and compiles, and every observation evaluates |
| RulesService.NoVersionFails | src/application/services/rules_service.py:44-48 | with no version requested and none available, the result is the `RuntimeError` wrapping "No rule versions available" |
| RulesService.MissingRulesFileFails | src/application/services/rules_service.py:50-53 | a requested version without a rules file fails with the wrapped message naming version and path, with no fallback to latest |
| RulesService.MissingLatestFileFails | src/application/services/rules_service.py:44-53 | with no version requested, a missing file for the latest version fails with the wrapped message naming that version and its path |
| RulesService.CompileFailureReported | src/application/services/rules_service.py:70-104 | a rules file the engine cannot compile fails with the engine's message behind the prefix |
| RulesService.SingleFailureReported | src/application/services/rules_service.py:90-104 | a single observation the engine cannot evaluate fails with the engine's message behind the prefix |
| RulesService.BatchShape | src/application/services/rules_service.py:73-89 | a list input gives a list of the same length, in input order, element i being the engine's `result` for observation i or `{}`; the performance is the rendered total |
| RulesService.SingleShape | src/application/services/rules_service.py:90-94 | a single observation's result and performance are the engine's, unchanged, defaulting to `{}` and `''` |
| RulesService.BatchFailsFast | src/application/services/rules_service.py:78-80 | when some observation of a list fails, the whole evaluation fails with the first failing observation's error and no partial result |
| RulesController.FirstNonObject | src/presentation/controllers/rules_controller.py:55-57 | finds the smallest index whose element is not an object, or reports that every element is one |
| RulesController.Validate | src/presentation/controllers/rules_controller.py:36-64 | a non-JSON request is rejected first; a malformed body raises `BadRequest`; `null`, numbers and booleans raise `TypeError`; only non-object bodies raise; an accepted request has an object body, and the service receives its `observations` and its `property_id` (`None` when absent or null) |
| RulesController.ValidateAcceptsIff | src/presentation/controllers/rules_controller.py:36-57 | a request is accepted exactly when it is JSON, its body is an object holding `observations`, and that is an object or a non-empty array of objects |
| RulesController.ValidationOrder | src/presentation/controllers/rules_controller.py:44-54 | missing key, then wrong type, then empty array, each with its own 400 message |
| RulesController.ValidationFailuresAre400 | src/presentation/controllers/rules_controller.py:44-57 | a missing key, a wrong type, an empty array and a non-object element are each answered with 400 and their own message |
| RulesController.RejectedIs400 | src/presentation/controllers/rules_controller.py:36-57 | every rejection by the validator is answered with 400 and the validator's message |
| RulesController.NonObjectBodyIs500 | src/presentation/controllers/rules_controller.py:44-83 | a `null`, numeric or boolean JSON body is answered with 500 and the internal-error prefix |
| RulesController.MalformedBodyIs500 | src/presentation/controllers/rules_controller.py:41-83 | a body that is not valid JSON is answered with 500 and the internal-error prefix |
| RulesController.ListBodyResponse | src/presentation/controllers/rules_controller.py:44-83 | a list body gets 500 with the internal-error prefix exactly when it holds the string `"observations"`, else 400 "Missing required field: observations" |
| RulesController.StringBodyResponse | src/presentation/controllers/rules_controller.py:44-83 | a string body gets 500 with the internal-error prefix exactly when `observations` occurs in it, else 400 "Missing required field: observations" |
| RulesController.FirstBadElementNamed | src/presentation/controllers/rules_controller.py:55-57 | an array whose first non-object element is at index i is rejected with "observations[i] must be an object" |
| RulesController.ContentTypeFirst | src/presentation/controllers/rules_controller.py:38-39 | a non-JSON request gets 400 "Content-Type must be application/json" whatever else it holds |
| RulesController.RejectedNeverReachesService | src/presentation/controllers/rules_controller.py:36-64 | a request the validator does not accept gets a non-200 response that does not depend on rules, engine or clock, so the service is never called |
| RulesController.Handle | src/presentation/controllers/rules_controller.py:30-83 | answers only 200, 400 or 500; a rejected request gets 400 with the validator's message; an exception raised while validating gets the response its kind selects; never 200 unless accepted; a 200 carries the envelope of the service's successful result |
| RulesController.ErrorResponse | src/presentation/controllers/rules_controller.py:78-83 | `ValueError` is 400 with "Invalid request data: "; `RuntimeError` is 500 with its bare message; anything else is 500 with "Internal server error: " |
| RulesController.SuccessIff | src/presentation/controllers/rules_controller.py:58-76 | status 200 exactly when the request is well formed and the service evaluates it |
| RulesController.SuccessEnvelope | src/presentation/controllers/rules_controller.py:70-76 | the 200 envelope copies the result and performance, the timestamp, the version actually used (latest for `/latest`, the pinned one otherwise) and `property_id` from the body or `null` |
| RulesController.HandleServiceSuccess | src/presentation/controllers/rules_controller.py:58-76 | an accepted request the service evaluates is answered with 200 and the envelope of its result |
| RulesController.EnvelopeFields | src/presentation/controllers/rules_controller.py:70-76 | each envelope key holds the corresponding field of the service result |
| RulesController.ServiceFailureIs500 | src/presentation/controllers/rules_controller.py:80-81 | a well-formed request that the service cannot evaluate gets 500 with the service's own message |
| RulesController.UnknownVersionIs500 | src/presentation/controllers/rules_controller.py:117-138 | a pinned version without a rules file is answered with 500 and the wrapped file-not-found message |
| RulesController.VersionsResponse | src/presentation/controllers/rules_controller.py:11-27 | always 200, listing every version newest first, with `latest` the first of them or `null` exactly when there are none |
| RulesController.RouteOf | src/presentation/controllers/rules_controller.py:86 | a path reaches `/latest` exactly when it is `/rules/latest`; the pinned route takes a non-empty, slash-free version segment |
| FireMitigation.NewClient | src/application/services/fire_mitigation_service.py:9-10 | the stored base URL is the given one with its trailing `/` characters, and only those, removed |
| FireMitigation.NewClientIdempotent | src/application/services/fire_mitigation_service.py:10 | normalising an already normalised URL changes nothing |
| FireMitigation.DefaultClient | src/application/services/fire_mitigation_service.py:9-10 | the default base URL `http://localhost:5000` is kept as given |
| FireMitigation.Endpoint | src/application/services/fire_mitigation_service.py:39 | the base URL, then the `/rules` path, ending with the version when one is given |
| FireMitigation.EndpointRoutes | src/application/services/fire_mitigation_service.py:39 | the endpoint extends the base URL with a path that the server routes to `/latest` without a version and to the pinned route for the given version |
| FireMitigation.PayloadAccepted | src/application/services/fire_mitigation_service.py:33-36 | the payload of a non-empty list of objects passes the server's validation, with those observations unchanged and the property id as `property_id` |
| FireMitigation.Payload | src/application/services/fire_mitigation_service.py:33-36 | an object with exactly the keys `observations` (the list unchanged) and `property_id` (the id as a string) |
| FireMitigation.Submit | src/application/services/fire_mitigation_service.py:12-56 | empty observations give `ValueError("observations cannot be empty")`, and only they do; otherwise the outcome of the single post is a success, or a `RuntimeError` with the submit or parse prefix |
| FireMitigation.EmptySubmitIsOffline | src/application/services/fire_mitigation_service.py:29-30 | an empty submission's outcome does not depend on the network |
| FireMitigation.SampleObservations | src/application/services/fire_mitigation_service.py:58-81 | three observation objects with `risk_type` windows, attic and roof, in that order |
| FireMitigation.GatherObservations | src/application/services/fire_mitigation_service.py:104-115 | never empty: window then attic then roof observations, or the samples when all are absent or empty |
| FireMitigation.ProcessAssessment | src/application/services/fire_mitigation_service.py:83-121 | never the empty-observations error; a success is what the network answered for the gathered observations on the endpoint for the given version |
| FireMitigation.ProcessSubmitsConcatenation | src/application/services/fire_mitigation_service.py:104-121 | with any observations given, the assessment is the submission of their concatenation with the same property id and version |
| FireMitigation.ProcessFallsBackToSamples | src/application/services/fire_mitigation_service.py:113-121 | with none given, the three sample observations are submitted |
| GreetingRepository.EmptyValid | app/src/infrastructure/repositories/in_memory_greeting_repository.py:10-11 | a new repository satisfies the store invariant and lists nothing |
| GreetingRepository.GetById | app/src/infrastructure/repositories/in_memory_greeting_repository.py:13-15 | the greeting saved under the id, or `None` for an id never saved |
| GreetingRepository.GetAll | app/src/infrastructure/repositories/in_memory_greeting_repository.py:17-19 | one greeting per stored id, in insertion order, as many as there are ids |
| GreetingRepository.GetAllComplete | app/src/infrastructure/repositories/in_memory_greeting_repository.py:19 | every stored greeting is listed |
| GreetingRepository.Save | app/src/infrastructure/repositories/in_memory_greeting_repository.py:21-27 | a greeting without id gets the fresh id and one with an id keeps it; the returned greeting is then found under its id, every other id is unchanged, and the store invariant holds |
| GreetingRepository.SaveNewIdAppends | app/src/infrastructure/repositories/in_memory_greeting_repository.py:26 | saving under a new id appends the greeting to `get_all` |
| GreetingRepository.SaveKnownIdReplaces | app/src/infrastructure/repositories/in_memory_greeting_repository.py:26 | saving under a known id replaces the greeting where it stands, so the count is unchanged |
| GreetingRepository.SaveFreshGrows | app/src/infrastructure/repositories/in_memory_greeting_repository.py:23-26 | if the fresh id is unused, saving a new greeting adds exactly one entry |
| Text.StripSpec | app/src/application/services/greeting_service.py:24-28 | `strip()` is empty exactly for all-whitespace text; otherwise it is the inner piece between the first and last non-whitespace characters |
| Text.StripIdempotent | app/src/application/services/greeting_service.py:28 | stripping a stripped message changes nothing |
| GreetingService.CreateHelloWorld | app/src/application/services/greeting_service.py:14-20 | saves and returns a greeting with message exactly "Hello World!", the clock's time and the fresh id, leaving other ids unchanged |
| GreetingService.HelloWorldAddsOne | app/src/application/services/greeting_service.py:14-20 | with an unused fresh id, the new greeting is appended to the listing |
| GreetingService.CreateCustom | app/src/application/services/greeting_service.py:22-31 | `ValueError("Message cannot be empty")`, with no store change, exactly for empty or all-whitespace messages; otherwise saves and returns the stripped message under the fresh id |
| GreetingService.CustomMessageStripped | app/src/application/services/greeting_service.py:27-31 | the stored message is non-empty, has no whitespace at either end, and is the input's inner piece |
| GreetingService.GetAllGreetings | app/src/application/services/greeting_service.py:33-35 | the repository's listing: one greeting per stored id, in insertion order |

## Left out

- The decision engine (`zen`): its evaluation semantics and the rule JSON are not modelled. The engine is a parameter that may fail and may omit `result` or `performance`. The published roof/window/attic outcomes depend on it alone.
- Filesystem calls. `os.path.exists`, `os.listdir`, `os.path.isdir` and `open().read()` become a listing snapshot plus a path-to-content map, and the same snapshot answers every call within one evaluation. Path normalisation, symbolic links, a rules path that is a directory, and read or decoding errors are not modelled.
- `str.isdigit` on non-ASCII digits: only `'0'..'9'` count as digits. Unicode digits, for which Python's `int()` raises and the listing becomes `[]`, are out of scope.
- Performance.ParseTenths: reads only `ddd` and `ddd.d`. Every other text that Python's `float()` accepts (signs, exponents, surrounding whitespace, underscores, `.5`, several fractional digits) is a parse failure in the model. The engine's measurements have one fractional digit.
- Performance.Render: totals are exact integer tenths. Python's binary floating-point sum and the rounding of `:.1f` are not modelled.
- Performance.Contribution: the `ValueError` text quotes the number with plain single quotes, where Python uses `repr`.
- RulesController.Validate: the `TypeError` texts Python raises for a non-object body vary between Python versions and are given by fixed strings. The content of Flask's `BadRequest` message is taken from the body parser's reason.
- Network I/O, the 30-second timeout, `raise_for_status` and JSON decoding collapse into the three-way `PostOutcome` answer of the network parameter. Newer `requests` releases raise a decoding error that is also a `RequestException`, which would select the submit prefix rather than the parse prefix; the model follows the code as written.
- Timestamps: `datetime.utcnow()` and `isoformat()` are replaced by a `now` string. Nothing is computed from the time.
- `uuid.uuid4()` is replaced by a `freshId` parameter. That it is unused in the store is an assumption, stated as a precondition only where it matters (`SaveFreshGrows`, `HelloWorldAddsOne`).
- Python object identity: `save` mutates and stores the caller's greeting object. Later mutations through that reference are not modelled.
- JSON numbers are integers only. Observations and results are passed through and never inspected.
- JSON objects are maps, so the key order of a Python dict is not kept. The engine receives observations in their own key order; nothing in the modelled code reads that order.
- Flask and dependency-injection plumbing, URL percent-decoding, the application factories, settings and `main.py`. The greeting controller is a thin wrapper over `GreetingService`. The older single-file rules service and rules controller under `app/` are superseded by the ones modelled here.
- `RulesService.__init__` computes a default base path from the module's own location; the model takes the base path as a parameter.
- The `/rules/versions` handler's 500 branch is unreachable because the listing never raises, so `VersionsResponse` always answers 200.

=== FILE: fire_mitigation.dfy ===
/** `FireMitigationService` (src/application/services/fire_mitigation_service.py):
    the client that packages a property's observations and posts them to the
    `/rules` endpoints. The network is an oracle parameter. */
module FireMitigation {
  import opened Wrappers
  import opened Json
  import opened Text
  import opened RulesController

  /** What one `requests.post(...)` followed by `raise_for_status()` and
      `response.json()` yields: a transport failure (connection, timeout or
      an error status), a body that is not JSON, or the decoded body. */
  datatype PostOutcome = RequestFailed(reason: string) | UndecodableBody(reason: string) | Decoded(body: Json)

  /** The network: what posting a JSON payload to an endpoint yields. */
  datatype Network = Network(post: (string, Json) -> PostOutcome)

  /** A configured client: its base URL. */
  datatype Client = Client(baseUrl: string)

  const DefaultBaseUrl: string := "http://localhost:5000"
  const EmptyObservationsMessage: string := "observations cannot be empty"
  const SubmitFailurePrefix: string := "Failed to submit observations to rules engine: "
  const ParseFailurePrefix: string := "Failed to parse rules engine response: "

  /** `__init__`: the base URL with every trailing `/` removed. */
  function NewClient(baseUrl: string): (c: Client)
    ensures |c.baseUrl| <= |baseUrl| && baseUrl[..|c.baseUrl|] == c.baseUrl
    ensures forall i :: |c.baseUrl| <= i < |baseUrl| ==> baseUrl[i] == '/'
    ensures c.baseUrl == [] || c.baseUrl[|c.baseUrl| - 1] != '/'
  {
    Client(TrimEnd(baseUrl, {'/'}))
  }

  /** The default client talks to `http://localhost:5000` as given: that URL
      has no trailing `/` to remove. */
  lemma DefaultClient()
    ensures NewClient(DefaultBaseUrl).baseUrl == DefaultBaseUrl
  {
    assert DefaultBaseUrl[|DefaultBaseUrl| - 1] == '0';
  }

  /** Configuring a client with an already configured base URL changes nothing. */
  lemma NewClientIdempotent(baseUrl: string)
    ensures NewClient(NewClient(baseUrl).baseUrl) == NewClient(baseUrl)
  {
    TrimEndIdempotent(baseUrl, {'/'});
  }

  /** The target URL: `/rules/latest` without a version, else
      `/rules/version/<version>`, after the base URL. */
  function Endpoint(client: Client, version: Option<string>): (r: string)
    ensures |client.baseUrl| + |RoutePrefix| <= |r|
    ensures r[..|client.baseUrl|] == client.baseUrl
    ensures r[|client.baseUrl|..|client.baseUrl| + |RoutePrefix|] == RoutePrefix
    ensures version.Some? ==> |version.value| <= |r| && r[|r| - |version.value|..] == version.value
  {
    match version
    case None => client.baseUrl + "/rules/latest"
    case Some(v) => client.baseUrl + "/rules/version/" + v
  }

  /** The endpoint reaches the handler for the version asked for: the latest
      route without one, the pinned route for a version that is a plain path
      segment. */
  lemma EndpointRoutes(client: Client, version: Option<string>)
    requires version.Some? ==> IsSegment(version.value)
    ensures |client.baseUrl| <= |Endpoint(client, version)|
    ensures Endpoint(client, version)[..|client.baseUrl|] == client.baseUrl
    ensures RouteOf(Endpoint(client, version)[|client.baseUrl|..]) ==
      Some(if version.None? then LatestRoute else VersionRoute(version.value))
  {
    var path := Endpoint(client, version)[|client.baseUrl|..];
    match version
    case None =>
      assert path == RoutePrefix + "/latest";
    case Some(v) =>
      assert path == RoutePrefix + "/version/" + v;
      var r := RouteOf(path);
      assert path[7] == 'v';
      assert path[|RoutePrefix + "/version/"|..] == v;
  }

  /** The request payload: the observations unchanged and the property id. */
  function Payload(propertyId: string, observations: seq<Json>): (r: Json)
    ensures r.JObj? && r.fields.Keys == {ObservationsKey, PropertyIdKey}
    ensures r.fields[ObservationsKey] == JArr(observations)
    ensures Lookup(r.fields, PropertyIdKey) == Some(JStr(propertyId))
  {
    JObj(map[ObservationsKey := JArr(observations), PropertyIdKey := JStr(propertyId)])
  }

  /** The payload the client builds is one the `/rules` handlers accept
      whenever the observations are a non-empty list of objects, and the
      service then sees exactly those observations and the property id. */
  lemma PayloadAccepted(propertyId: string, observations: seq<Json>)
    requires |observations| > 0 && forall i :: 0 <= i < |observations| ==> observations[i].JObj?
    ensures var request := HttpRequest(true, Parsed(Payload(propertyId, observations)));
      && Validate(request) == Accepted(JArr(observations), Some(JStr(propertyId)))
  {
    var request := HttpRequest(true, Parsed(Payload(propertyId, observations)));
    assert WellFormed(request);
    ValidateAcceptsIff(request);
  }

  /** `submit_property_observations`: an empty list is a `ValueError` raised
      before any request; otherwise one post to the endpoint, whose transport
      and decoding failures both become `RuntimeError`. */
  function Submit(client: Client, network: Network, propertyId: string, observations: seq<Json>,
    version: Option<string>): (r: Result<Json, Exc>)
    ensures |observations| == 0 <==> r == Failure(ValueError(EmptyObservationsMessage))
    ensures r.Failure? && |observations| > 0 ==> r.error.RuntimeError?
    ensures r.Success? ==>
      network.post(Endpoint(client, version), Payload(propertyId, observations)) == Decoded(r.value)
    ensures |observations| > 0 ==> match network.post(Endpoint(client, version), Payload(propertyId, observations))
      case RequestFailed(reason) => r == Failure(RuntimeError(SubmitFailurePrefix + reason))
      case UndecodableBody(reason) => r == Failure(RuntimeError(ParseFailurePrefix + reason))
      case Decoded(body) => r == Success(body)
  {
    if |observations| == 0 then Failure(ValueError(EmptyObservationsMessage))
    else
      match network.post(Endpoint(client, version), Payload(propertyId, observations))
      case RequestFailed(reason) => Failure(RuntimeError(SubmitFailurePrefix + reason))
      case UndecodableBody(reason) => Failure(RuntimeError(ParseFailurePrefix + reason))
      case Decoded(body) => Success(body)
  }

  /** An empty submission never touches the network: its outcome is the same
      whatever the network would have answered. */
  lemma EmptySubmitIsOffline(client: Client, network: Network, network': Network, propertyId: string,
    version: Option<string>)
    ensures Submit(client, network, propertyId, [], version) == Submit(client, network', propertyId, [], version)
  {
  }

  /** `create_sample_observations`: a window, an attic and a roof observation. */
  function SampleObservations(): (r: seq<Json>)
    ensures |r| == 3
    ensures forall i :: 0 <= i < |r| ==> r[i].JObj? && "risk_type" in r[i].fields
    ensures r[0].fields["risk_type"] == JStr("windows")
    ensures r[1].fields["risk_type"] == JStr("attic")
    ensures r[2].fields["risk_type"] == JStr("roof")
  {
    [
      JObj(map["risk_type" := JStr("windows"), "window_type" := JStr("single"),
               "vegetation_type" := JStr("tree"), "distance" := JNum(80)]),
      JObj(map["risk_type" := JStr("attic"), "attic_vent_screens" := JBool(false)]),
      JObj(map["risk_type" := JStr("roof"), "roof_type" := JStr("c"), "wild_fire_risk" := JStr("a")])
    ]
  }

  /** An optional list, with `None` read as empty (Python's `if xs:`). */
  function OrEmpty(xs: Option<seq<Json>>): seq<Json> {
    xs.GetOr([])
  }

  /** The window, attic and roof observations, concatenated in that order,
      falling back to the sample observations when all three are absent or
      empty. */
  function GatherObservations(window: Option<seq<Json>>, attic: Option<seq<Json>>,
    roof: Option<seq<Json>>): (r: seq<Json>)
    ensures |r| > 0
    ensures OrEmpty(window) + OrEmpty(attic) + OrEmpty(roof) != [] ==>
      r == OrEmpty(window) + OrEmpty(attic) + OrEmpty(roof)
    ensures OrEmpty(window) + OrEmpty(attic) + OrEmpty(roof) == [] ==> r == SampleObservations()
  {
    var withWindow := if window.Some? && |window.value| > 0 then window.value else [];
    var withAttic := if attic.Some? && |attic.value| > 0 then withWindow + attic.value else withWindow;
    var all := if roof.Some? && |roof.value| > 0 then withAttic + roof.value else withAttic;
    if |all| == 0 then SampleObservations() else all
  }

  /** `process_property_risk_assessment`: submits the gathered observations
      with the version and property id unchanged, so it never raises the
      empty-observations error. */
  function ProcessAssessment(client: Client, network: Network, propertyId: string,
    window: Option<seq<Json>>, attic: Option<seq<Json>>, roof: Option<seq<Json>>,
    version: Option<string>): (r: Result<Json, Exc>)
    ensures r.Failure? ==> r.error.RuntimeError?
    ensures r.Success? ==> network.post(Endpoint(client, version),
      Payload(propertyId, GatherObservations(window, attic, roof))) == Decoded(r.value)
  {
    Submit(client, network, propertyId, GatherObservations(window, attic, roof), version)
  }

  /** When any observations are given, the assessment is exactly the
      submission of window, attic and roof observations in that order, with
      the same property id and version. */
  lemma ProcessSubmitsConcatenation(client: Client, network: Network, propertyId: string,
    window: Option<seq<Json>>, attic: Option<seq<Json>>, roof: Option<seq<Json>>, version: Option<string>)
    requires OrEmpty(window) + OrEmpty(attic) + OrEmpty(roof) != []
    ensures ProcessAssessment(client, network, propertyId, window, attic, roof, version) ==
      Submit(client, network, propertyId, OrEmpty(window) + OrEmpty(attic) + OrEmpty(roof), version)
  {
  }

  /** With nothing to report, the three sample observations are submitted. */
  lemma ProcessFallsBackToSamples(client: Client, network: Network, propertyId: string,
    window: Option<seq<Json>>, attic: Option<seq<Json>>, roof: Option<seq<Json>>, version: Option<string>)
    requires OrEmpty(window) == [] && OrEmpty(attic) == [] && OrEmpty(roof) == []
    ensures ProcessAssessment(client, network, propertyId, window, attic, roof, version) ==
      Submit(client, network, propertyId, SampleObservations(), version)
  {
  }
}

=== FILE: greeting_repository.dfy ===
/** `InMemoryGreetingRepository`
    (app/src/infrastructure/repositories/in_memory_greeting_repository.py):
    greetings kept by id. The dictionary keeps insertion order, which
    `get_all` reports, so the store is the ids in insertion order plus the
    map from id to greeting. */
module GreetingRepository {
  import opened Wrappers

  /** `Greeting`: a message, the creation time (already rendered) and an id
      once saved. */
  datatype Greeting = Greeting(message: string, timestamp: string, id: Option<string>)

  datatype Store = Store(order: seq<string>, byId: map<string, Greeting>)

  /** The ids listed once each, in insertion order, exactly the map's keys;
      every greeting is filed under its own id. */
  predicate Valid(s: Store) {
    && Distinct(s.order)
    && (forall i :: 0 <= i < |s.order| ==> s.order[i] in s.byId)
    && (forall id :: id in s.byId ==> id in s.order && s.byId[id].id == Some(id))
  }

  predicate Distinct(xs: seq<string>) {
    forall i, j :: 0 <= i < j < |xs| ==> xs[i] != xs[j]
  }

  /** A new repository holds nothing. */
  const Empty: Store := Store([], map[])

  lemma EmptyValid()
    ensures Valid(Empty) && GetAll(Empty) == []
  {
  }

  /** `get_by_id`: the greeting saved under `id`, or `None`. */
  function GetById(s: Store, id: string): (r: Option<Greeting>)
    ensures r.Some? <==> id in s.byId
    ensures r.Some? ==> r.value == s.byId[id]
  {
    if id in s.byId then Some(s.byId[id]) else None
  }

  /** `get_all`: the stored greetings, one per id, in insertion order. */
  function GetAll(s: Store): (r: seq<Greeting>)
    requires Valid(s)
    ensures |r| == |s.byId| == |s.order|
    ensures forall i :: 0 <= i < |r| ==> r[i] == s.byId[s.order[i]]
  {
    DistinctCount(s.order, s.byId.Keys);
    seq(|s.order|, i requires 0 <= i < |s.order| => s.byId[s.order[i]])
  }

  /** `get_all` holds every stored greeting. */
  lemma GetAllComplete(s: Store, id: string)
    requires Valid(s) && id in s.byId
    ensures s.byId[id] in GetAll(s)
  {
    var i := IndexOf(s.order, id);
    assert GetAll(s)[i] == s.byId[id];
  }

  /** The position of `x` in `xs`. */
  function IndexOf(xs: seq<string>, x: string): (i: nat)
    requires x in xs
    ensures i < |xs| && xs[i] == x
  {
    if xs[0] == x then 0 else 1 + IndexOf(xs[1..], x)
  }

  /** A duplicate-free sequence listing exactly a set has the set's size. */
  lemma {:induction false} DistinctCount(xs: seq<string>, keys: set<string>)
    requires Distinct(xs)
    requires forall i :: 0 <= i < |xs| ==> xs[i] in keys
    requires forall k :: k in keys ==> k in xs
    ensures |xs| == |keys|
  {
    if |xs| > 0 {
      var last := xs[|xs| - 1];
      var init := xs[..|xs| - 1];
      forall k | k in keys - {last} ensures k in init {
        var i := IndexOf(xs, k);
        assert i != |xs| - 1;
        assert init[i] == k;
      }
      DistinctCount(init, keys - {last});
    }
  }

  /** `save`: a greeting without an id receives `freshId` (the model's
      `str(uuid.uuid4())`); the greeting is then filed under its id,
      replacing any greeting already there, and returned carrying it. */
  function Save(s: Store, g: Greeting, freshId: string): (r: (Store, Greeting))
    requires Valid(s)
    ensures Valid(r.0)
    ensures g.id.None? ==> r.1 == g.(id := Some(freshId))
    ensures g.id.Some? ==> r.1 == g
    ensures r.1.message == g.message && r.1.timestamp == g.timestamp
    ensures GetById(r.0, r.1.id.value) == Some(r.1)
    ensures forall other :: other != r.1.id.value ==> GetById(r.0, other) == GetById(s, other)
    ensures r.0.byId.Keys == s.byId.Keys + {r.1.id.value}
  {
    var id := if g.id.Some? then g.id.value else freshId;
    var saved := g.(id := Some(id));
    var order := if id in s.byId then s.order else s.order + [id];
    (Store(order, s.byId[id := saved]), saved)
  }

  /** The id a save files its greeting under. */
  function SavedId(g: Greeting, freshId: string): string {
    if g.id.Some? then g.id.value else freshId
  }

  /** `get_all` after saving under a new id: the greeting is appended. */
  lemma SaveNewIdAppends(s: Store, g: Greeting, freshId: string)
    requires Valid(s) && SavedId(g, freshId) !in s.byId
    ensures GetAll(Save(s, g, freshId).0) == GetAll(s) + [Save(s, g, freshId).1]
  {
    var r := Save(s, g, freshId);
    GetAllAppend(s, r.0, SavedId(g, freshId), r.1);
  }

  /** Filing a greeting under an id not yet stored appends it to the listing. */
  lemma GetAllAppend(s: Store, s': Store, id: string, saved: Greeting)
    requires Valid(s) && Valid(s') && id !in s.byId
    requires s'.order == s.order + [id] && s'.byId == s.byId[id := saved]
    ensures GetAll(s') == GetAll(s) + [saved]
  {
    var before, after := GetAll(s), GetAll(s');
    forall i | 0 <= i < |before| ensures after[i] == before[i] {
      var x := s.order[i];
      assert x in s.byId && x != id;
      assert after[i] == s'.byId[x];
    }
    assert after[|before|] == saved;
  }

  /** `get_all` after saving under a known id: the greeting replaces the old
      one where it stands, and the count is unchanged. */
  lemma SaveKnownIdReplaces(s: Store, g: Greeting, freshId: string)
    requires Valid(s) && SavedId(g, freshId) in s.byId
    ensures GetAll(Save(s, g, freshId).0) ==
      GetAll(s)[IndexOf(s.order, SavedId(g, freshId)) := Save(s, g, freshId).1]
  {
    var r := Save(s, g, freshId);
    GetAllReplace(s, r.0, SavedId(g, freshId), r.1);
  }

  /** Filing a greeting under a stored id replaces it at that id's position. */
  lemma GetAllReplace(s: Store, s': Store, id: string, saved: Greeting)
    requires Valid(s) && Valid(s') && id in s.byId
    requires s'.order == s.order && s'.byId == s.byId[id := saved]
    ensures GetAll(s') == GetAll(s)[IndexOf(s.order, id) := saved]
  {
    var before, after := GetAll(s), GetAll(s');
    var k := IndexOf(s.order, id);
    var expected := before[k := saved];
    forall i | 0 <= i < |after| ensures after[i] == expected[i] {
      if i != k {
        var x := s.order[i];
        assert x != id by {
          if i < k {
            assert s.order[i] != s.order[k];
          } else {
            assert s.order[k] != s.order[i];
          }
        }
        assert after[i] == s'.byId[x] == s.byId[x];
      }
    }
  }

  /** With the fresh-id supply's guarantee that `freshId` is unused, saving a
      new greeting adds exactly one entry. */
  lemma SaveFreshGrows(s: Store, g: Greeting, freshId: string)
    requires Valid(s) && g.id.None? && freshId !in s.byId
    ensures |GetAll(Save(s, g, freshId).0)| == |GetAll(s)| + 1
  {
    SaveNewIdAppends(s, g, freshId);
  }
}

=== FILE: greeting_service.dfy ===
/** `GreetingService` (app/src/application/services/greeting_service.py):
    creating greetings through the repository. The clock and the id supply
    are parameters. */
module GreetingService {
  import opened Wrappers
  import opened Text
  import opened GreetingRepository

  const HelloWorld: string := "Hello World!"
  const EmptyMessageError: string := "Message cannot be empty"

  /** `create_hello_world_greeting`: saves a new "Hello World!" greeting and
      returns what the repository's save returns. */
  function CreateHelloWorld(s: Store, now: string, freshId: string): (r: (Store, Greeting))
    requires Valid(s)
    ensures Valid(r.0)
    ensures r.1 == Greeting(HelloWorld, now, Some(freshId))
    ensures GetById(r.0, freshId) == Some(r.1)
    ensures forall other :: other != freshId ==> GetById(r.0, other) == GetById(s, other)
  {
    Save(s, Greeting(HelloWorld, now, None), freshId)
  }

  /** `create_custom_greeting`: an empty or all-whitespace message is a
      `ValueError` and leaves the store alone; otherwise the message is saved
      with surrounding whitespace stripped. */
  function CreateCustom(s: Store, message: string, now: string, freshId: string): (r: Result<(Store, Greeting), Exc>)
    requires Valid(s)
    ensures r.Failure? <==> forall i :: 0 <= i < |message| ==> message[i] in Whitespace
    ensures r.Failure? ==> r.error == ValueError(EmptyMessageError)
    ensures r.Success? ==> Valid(r.value.0)
    ensures r.Success? ==> r.value.1 == Greeting(Strip(message), now, Some(freshId))
    ensures r.Success? ==> GetById(r.value.0, freshId) == Some(r.value.1)
    ensures r.Success? ==> forall other :: other != freshId ==> GetById(r.value.0, other) == GetById(s, other)
  {
    StripSpec(message);
    if |message| == 0 || |Strip(message)| == 0 then Failure(ValueError(EmptyMessageError))
    else Success(Save(s, Greeting(Strip(message), now, None), freshId))
  }

  /** A stored custom message has no surrounding whitespace, is non-empty,
      and is the input with whitespace removed only at its ends. */
  lemma CustomMessageStripped(s: Store, message: string, now: string, freshId: string)
    requires Valid(s)
    requires CreateCustom(s, message, now, freshId).Success?
    ensures var stored := CreateCustom(s, message, now, freshId).value.1.message;
      && |stored| > 0
      && stored[0] !in Whitespace && stored[|stored| - 1] !in Whitespace
      && stored == message[LeadingWhitespace(message)..LeadingWhitespace(message) + |stored|]
  {
    StripSpec(message);
  }

  /** `get_all_greetings`: the repository's `get_all`, unchanged. */
  function GetAllGreetings(s: Store): (r: seq<Greeting>)
    requires Valid(s)
    ensures |r| == |s.byId| == |s.order|
    ensures forall i :: 0 <= i < |r| ==> r[i] == s.byId[s.order[i]]
  {
    GetAll(s)
  }

  /** Greetings created with fresh ids accumulate: each adds one to what
      `get_all_greetings` returns. */
  lemma HelloWorldAddsOne(s: Store, now: string, freshId: string)
    requires Valid(s) && freshId !in s.byId
    ensures |GetAllGreetings(CreateHelloWorld(s, now, freshId).0)| == |GetAllGreetings(s)| + 1
    ensures GetAllGreetings(CreateHelloWorld(s, now, freshId).0) ==
      GetAllGreetings(s) + [CreateHelloWorld(s, now, freshId).1]
  {
    SaveNewIdAppends(s, Greeting(HelloWorld, now, None), freshId);
  }
}

=== FILE: json.dfy ===
/** JSON values as the request bodies, observations and engine results carry them. */
module Json {
  import opened Wrappers

  /** A JSON document. Numbers are integers only: no modelled path
      looks inside a number, it is only passed through. */
  datatype Json =
    | JNull
    | JBool(b: bool)
    | JNum(n: int)
    | JStr(s: string)
    | JArr(items: seq<Json>)
    | JObj(fields: map<string, Json>)

  /** Python's `{}`. */
  const EmptyObject: Json := JObj(map[])

  /** Python's `dict.get(key)` on a decoded JSON object: a JSON `null`
      decodes to `None`, so it reads the same as a missing key. */
  function Lookup(fields: map<string, Json>, key: string): (r: Option<Json>)
    ensures r.Some? <==> key in fields && fields[key] != JNull
    ensures r.Some? ==> r.value == fields[key]
  {
    if key in fields && fields[key] != JNull then Some(fields[key]) else None
  }
}

=== FILE: performance.dfy ===
/** Engine performance measurements such as `"48.7µs"`, and their batch
    aggregation in `RulesService.evaluate_fire_risk`. Durations are integer
    tenths of a microsecond: the engine reports one fractional digit. */
module Performance {
  import opened Wrappers
  import opened Text

  /** The unit suffix `µs` (MICRO SIGN followed by `s`). */
  const Micros: string := "\U{00B5}s"

  /** What `result.get('performance', '0µs')` gives when the engine reports
      no measurement. */
  const DefaultMeasurement: string := "0\U{00B5}s"

  /** `float(text)` for the decimal shapes the engine emits, `ddd` or
      `ddd.d`, in tenths; `None` where the model does not read a number. */
  function ParseTenths(text: string): (r: Option<nat>)
    ensures IsDigits(text) ==> r == Some(DigitsValue(text) * 10)
    ensures r.Some? ==> |text| > 0 && IsDigitChar(text[0]) && IsDigitChar(text[|text| - 1])
    ensures r.Some? && !IsDigits(text) ==> |text| >= 3 && text[|text| - 2] == '.'
  {
    if IsDigits(text) then Some(DigitsValue(text) * 10)
    else if |text| >= 3 && text[|text| - 2] == '.' && IsDigits(text[..|text| - 2]) && IsDigitChar(text[|text| - 1])
    then Some(DigitsValue(text[..|text| - 2]) * 10 + DigitValue(text[|text| - 1]))
    else None
  }

  /** `f"{total:.1f}µs"`: the whole microseconds without leading zeros, a
      point, the tenths digit, and the unit. */
  function Render(tenths: nat): (r: string)
    ensures |r| >= 5 && r[|r| - 2..] == Micros
    ensures r[|r| - 4] == '.' && IsDigitChar(r[|r| - 3]) && DigitValue(r[|r| - 3]) == tenths % 10
    ensures IsCanonical(r[..|r| - 4]) && DigitsValue(r[..|r| - 4]) == tenths / 10
  {
    var whole := NatToString(tenths / 10);
    var r := whole + "." + [DigitChar(tenths % 10)] + Micros;
    assert r[..|r| - 4] == whole;
    r
  }

  /** One measurement's contribution to a batch total: a missing measurement
      counts as `0µs`; one without `µs` in it contributes nothing; otherwise
      every `µs` is removed and the rest read as a number, and a rest that is
      no number is the `ValueError` of `float()`. */
  function Contribution(measurement: Option<string>): (r: Result<nat, string>)
    ensures measurement.Some? && !Contains(measurement.value, Micros) ==> r == Success(0)
    ensures r.Failure? ==>
      Contains(measurement.GetOr(DefaultMeasurement), Micros) &&
      ParseTenths(RemoveAll(measurement.GetOr(DefaultMeasurement), Micros)).None?
    ensures r.Success? && Contains(measurement.GetOr(DefaultMeasurement), Micros) ==>
      ParseTenths(RemoveAll(measurement.GetOr(DefaultMeasurement), Micros)) == Some(r.value)
  {
    var text := measurement.GetOr(DefaultMeasurement);
    if !Contains(text, Micros) then Success(0)
    else
      var number := RemoveAll(text, Micros);
      match ParseTenths(number)
      case Some(t) => Success(t)
      case None => Failure("could not convert string to float: '" + number + "'")
  }

  function Sum(ts: seq<nat>): nat {
    if |ts| == 0 then 0 else Sum(ts[..|ts| - 1]) + ts[|ts| - 1]
  }

  /** Rendering and reading back a measurement gives the same duration, so
      the aggregate is written in the very format it reads. */
  lemma RenderRoundTrip(tenths: nat)
    ensures Contains(Render(tenths), Micros)
    ensures Contribution(Some(Render(tenths))) == Success(tenths)
  {
    var whole := NatToString(tenths / 10);
    var c := DigitChar(tenths % 10);
    assert Render(tenths) == whole + "." + [c] + Micros;
    OneDecimalContributes(whole, c);
    UnitStripped(whole + "." + [c]);
  }

  /** A number part followed by the unit: the unit is found, and removing it
      leaves the number part, provided no character of it can start `µs`. */
  lemma UnitStripped(number: string)
    requires forall i :: 0 <= i < |number| ==> number[i] != Micros[0]
    ensures Contains(number + Micros, Micros)
    ensures RemoveAll(number + Micros, Micros) == number
  {
    UnitFound(number);
    RemoveAllPrefix(number, Micros, Micros);
    UnitRemovedFromItself();
    assert number + [] == number;
  }

  lemma UnitFound(number: string)
    ensures Contains(number + Micros, Micros)
  {
    var text := number + Micros;
    assert text[|number|..|number| + |Micros|] == Micros;
    ContainsAt(text, Micros, |number|);
  }

  lemma UnitRemovedFromItself()
    ensures RemoveAll(Micros, Micros) == []
  {
    assert Micros[..|Micros|] == Micros && Micros[|Micros|..] == [];
  }

  /** Every `ddd.dµs` measurement contributes its value in tenths. */
  lemma OneDecimalContributes(w: string, c: char)
    requires IsDigits(w) && IsDigitChar(c)
    ensures Contribution(Some(w + "." + [c] + Micros)) == Success(DigitsValue(w) * 10 + DigitValue(c))
  {
    OneDecimalAvoidsUnit(w, c);
    UnitStripped(w + "." + [c]);
    OneDecimalParses(w, c);
  }

  lemma OneDecimalAvoidsUnit(w: string, c: char)
    requires IsDigits(w) && IsDigitChar(c)
    ensures forall i :: 0 <= i < |w + "." + [c]| ==> (w + "." + [c])[i] != Micros[0]
  {
    var number := w + "." + [c];
    forall i | 0 <= i < |number| ensures number[i] != Micros[0] {
      if i < |w| {
        assert number[i] == w[i];
      }
    }
  }

  /** `float("ddd.d")` in tenths. */
  lemma OneDecimalParses(w: string, c: char)
    requires IsDigits(w) && IsDigitChar(c)
    ensures ParseTenths(w + "." + [c]) == Some(DigitsValue(w) * 10 + DigitValue(c))
  {
    var number := w + "." + [c];
    assert number[..|number| - 2] == w;
    assert !IsDigits(number) by {
      assert !IsDigitChar(number[|number| - 2]);
    }
  }

  /** Every `dddµs` measurement contributes its value in tenths. */
  lemma WholeContributes(w: string)
    requires IsDigits(w)
    ensures Contribution(Some(w + Micros)) == Success(DigitsValue(w) * 10)
  {
    forall i | 0 <= i < |w| ensures w[i] != Micros[0] {
      assert IsDigitChar(w[i]);
    }
    UnitStripped(w);
  }

  /** A measurement in `µs` whose number part is not a number is the
      `ValueError` of `float()`, naming that part. */
  lemma NonNumberFails(number: string)
    requires forall i :: 0 <= i < |number| ==> number[i] != Micros[0]
    requires ParseTenths(number).None?
    ensures Contribution(Some(number + Micros)) == Failure("could not convert string to float: '" + number + "'")
  {
    UnitStripped(number);
  }

  /** A measurement holding the unit but no room for a number leaves an
      empty number part, which `float('')` rejects. */
  lemma {:induction false} BareUnitFails(measurement: string)
    requires Contains(measurement, Micros) && |measurement| <= |Micros|
    ensures Contribution(Some(measurement)) == Failure("could not convert string to float: ''")
  {
    RemoveAllEffect(measurement, Micros);
    var number := RemoveAll(measurement, Micros);
    assert number == [];
    assert ParseTenths(number).None?;
    assert "could not convert string to float: '" + number + "'" == "could not convert string to float: ''";
  }

  /** A canonical one-decimal measurement, read and rendered again as the
      total of a batch of one, is reproduced character for character. */
  lemma CanonicalMeasurementReproduced(w: string, c: char)
    requires IsCanonical(w) && IsDigitChar(c)
    ensures Contribution(Some(w + "." + [c] + Micros)).Success?
    ensures Render(Sum([Contribution(Some(w + "." + [c] + Micros)).value])) == w + "." + [c] + Micros
  {
    OneDecimalContributes(w, c);
    var t := DigitsValue(w) * 10 + DigitValue(c);
    assert Sum([t]) == t by {
      assert [t][..0] == [];
    }
    assert t / 10 == DigitsValue(w) && t % 10 == DigitValue(c);
    RenderParse(w);
    assert DigitChar(DigitValue(c)) == c;
  }

  /** Every canonical one-decimal measurement reads back to the duration it
      renders: `Render` and `ParseTenths` are inverse on canonical text. */
  lemma ParseRender(tenths: nat)
    ensures ParseTenths(NatToString(tenths / 10) + "." + [DigitChar(tenths % 10)]) == Some(tenths)
  {
    var whole, c := NatToString(tenths / 10), DigitChar(tenths % 10);
    var v := DigitsValue(whole) * 10 + DigitValue(c);
    assert v == tenths by {
      assert DigitsValue(whole) == tenths / 10 && DigitValue(c) == tenths % 10;
    }
    assert ParseTenths(whole + "." + [c]) == Some(v) by {
      OneDecimalParses(whole, c);
    }
  }

  /** A missing measurement defaults to `0µs` and so adds nothing. */
  lemma MissingContributesZero()
    ensures Contribution(None) == Success(0)
  {
    assert DefaultMeasurement == "0" + Micros;
    WholeContributes("0");
  }

  /** A worked example: measurements `10.0µs`, `5.5µs` and `0.2µs`
      contribute 100, 55 and 2 tenths, which render as `15.7µs`. */
  lemma ExampleAggregate()
    ensures Contribution(Some("10.0\U{00B5}s")) == Success(100)
    ensures Contribution(Some("5.5\U{00B5}s")) == Success(55)
    ensures Contribution(Some("0.2\U{00B5}s")) == Success(2)
    ensures Render(Sum([100, 55, 2])) == "15.7\U{00B5}s"
  {
    ExampleRenderings();
    RenderedReadsBack(100, "10.0\U{00B5}s");
    RenderedReadsBack(55, "5.5\U{00B5}s");
    RenderedReadsBack(2, "0.2\U{00B5}s");
    ExampleSum();
  }

  lemma ExampleSum()
    ensures Sum([100, 55, 2]) == 157
  {
    assert [100, 55, 2][..2] == [100, 55];
    assert [100, 55][..1] == [100];
    assert [100][..0] == [];
  }

  lemma RenderedReadsBack(tenths: nat, text: string)
    requires Render(tenths) == text
    ensures Contribution(Some(text)) == Success(tenths)
  {
    RenderRoundTrip(tenths);
  }

  lemma ExampleRenderings()
    ensures Render(100) == "10.0\U{00B5}s"
    ensures Render(55) == "5.5\U{00B5}s"
    ensures Render(2) == "0.2\U{00B5}s"
    ensures Render(157) == "15.7\U{00B5}s"
  {
    assert NatToString(10) == "10" by {
      assert NatToString(1) == "1";
    }
    assert NatToString(15) == "15" by {
      assert NatToString(1) == "1";
    }
  }
}

=== FILE: rules_controller.dfy ===
/** The `/rules` endpoints (src/presentation/controllers/rules_controller.py):
    request validation in a fixed order, the success envelope, and the
    mapping from exception kind to status code. HTTP itself is left out: a
    request is its Content-Type verdict and its decoded body. */
module RulesController {
  import opened Wrappers
  import opened Json
  import opened Text
  import opened VersionCatalog
  import opened RulesService

  /** `request.get_json()`: the decoded document, or the decoder's complaint,
      which Flask raises as `BadRequest`. */
  datatype Body = Parsed(value: Json) | Malformed(reason: string)

  /** A POST request as the handlers read it: `request.is_json` and the body. */
  datatype HttpRequest = HttpRequest(isJson: bool, body: Body)

  /** The two evaluation routes: `/rules/latest` and `/rules/version/<version>`. */
  datatype Route = LatestRoute | VersionRoute(version: string)

  /** A JSON response with its status code. */
  datatype Response = Response(status: nat, body: Json)

  /** The validator's verdict: a request for the service, a 400 rejection, or
      an exception raised while inspecting the body. */
  datatype Validation =
    | Accepted(observations: Json, propertyId: Option<Json>)
    | Rejected(message: string)
    | Raised(error: Exc)

  const ContentTypeMessage: string := "Content-Type must be application/json"
  const MissingObservationsMessage: string := "Missing required field: observations"
  const ShapeMessage: string := "observations must be an object or array of objects"
  const EmptyArrayMessage: string := "observations array cannot be empty"
  const ObservationsKey: string := "observations"
  const PropertyIdKey: string := "property_id"

  /** The `TypeError` texts of the Python operations the validator applies to
      a body that is not an object (their exact wording varies between
      Python versions). */
  const ListIndexMessage: string := "list indices must be integers or slices, not str"
  const StringIndexMessage: string := "string indices must be integers"

  function NotIterableMessage(typeName: string): string {
    "argument of type '" + typeName + "' is not iterable"
  }

  function ElementMessage(i: nat): string {
    "observations[" + NatToString(i) + "] must be an object"
  }

  /** The index of the first element of `items` that is not a JSON object. */
  function FirstNonObject(items: seq<Json>): (r: Option<nat>)
    ensures r.Some? ==> r.value < |items| && !items[r.value].JObj?
    ensures r.Some? ==> forall j :: 0 <= j < r.value ==> items[j].JObj?
    ensures r.None? <==> forall j :: 0 <= j < |items| ==> items[j].JObj?
  {
    if |items| == 0 then None
    else if !items[0].JObj? then Some(0)
    else
      match FirstNonObject(items[1..])
      case Some(i) => Some(i + 1)
      case None =>
        assert forall j :: 1 <= j < |items| ==> items[j] == items[1..][j - 1];
        None
  }

  /** Checks on the `observations` value: object or array, a non-empty array,
      then every element an object, reporting the first offender. */
  function ValidateObservations(observations: Json, propertyId: Option<Json>): Validation {
    match observations
    case JObj(_) => Accepted(observations, propertyId)
    case JArr(items) =>
      if |items| == 0 then Rejected(EmptyArrayMessage)
      else (match FirstNonObject(items)
            case Some(i) => Rejected(ElementMessage(i))
            case None => Accepted(observations, propertyId))
    case _ => Rejected(ShapeMessage)
  }

  /** The validation sequence of both evaluation handlers. A body that is not
      a JSON object gets as far as Python's `'observations' in data` and
      `data['observations']`, which either find no key or raise. */
  function Validate(request: HttpRequest): (v: Validation)
    ensures !request.isJson ==> v == Rejected(ContentTypeMessage)
    ensures v.Accepted? ==> request.isJson && request.body.Parsed? && request.body.value.JObj?
    ensures v.Accepted? ==> ObservationsKey in request.body.value.fields
    ensures v.Accepted? ==> v.observations == request.body.value.fields[ObservationsKey]
    ensures v.Accepted? ==> v.propertyId == Lookup(request.body.value.fields, PropertyIdKey)
    ensures request.isJson && request.body.Malformed? ==> v == Raised(BadRequest(request.body.reason))
    ensures request.isJson && request.body.Parsed? && IsScalarNonString(request.body.value) ==>
      v.Raised? && v.error.TypeError?
    ensures v.Raised? ==> request.isJson && (request.body.Malformed? || !request.body.value.JObj?)
    ensures v.Raised? ==> v.error.BadRequest? || v.error.TypeError?
  {
    if !request.isJson then Rejected(ContentTypeMessage)
    else
      match request.body
      case Malformed(reason) => Raised(BadRequest(reason))
      case Parsed(data) =>
        match data
        case JObj(fields) =>
          if ObservationsKey !in fields then Rejected(MissingObservationsMessage)
          else ValidateObservations(fields[ObservationsKey], Lookup(fields, PropertyIdKey))
        case JArr(items) =>
          if JStr(ObservationsKey) in items then Raised(TypeError(ListIndexMessage))
          else Rejected(MissingObservationsMessage)
        case JStr(s) =>
          if Contains(s, ObservationsKey) then Raised(TypeError(StringIndexMessage))
          else Rejected(MissingObservationsMessage)
        case JNum(_) => Raised(TypeError(NotIterableMessage("int")))
        case JBool(_) => Raised(TypeError(NotIterableMessage("bool")))
        case JNull => Raised(TypeError(NotIterableMessage("NoneType")))
  }

  /** `null`, a number or a boolean: a JSON value Python's `in` cannot search. */
  predicate IsScalarNonString(value: Json) {
    value.JNull? || value.JNum? || value.JBool?
  }

  /** What the handlers accept, stated on its own: a JSON request whose body
      is an object holding `observations`, which is an object or a non-empty
      array of objects. */
  predicate WellFormed(request: HttpRequest) {
    && request.isJson
    && request.body.Parsed?
    && request.body.value.JObj?
    && ObservationsKey in request.body.value.fields
    && var observations := request.body.value.fields[ObservationsKey];
       || observations.JObj?
       || (observations.JArr? && |observations.items| > 0 &&
           forall i :: 0 <= i < |observations.items| ==> observations.items[i].JObj?)
  }

  /** The validator lets a request through exactly when it is well formed. */
  lemma ValidateAcceptsIff(request: HttpRequest)
    ensures Validate(request).Accepted? <==> WellFormed(request)
  {
  }

  /** Each check in order, with the first failing check deciding the message. */
  lemma ValidationOrder(request: HttpRequest)
    requires request.isJson && request.body.Parsed? && request.body.value.JObj?
    ensures var fields := request.body.value.fields;
      && (ObservationsKey !in fields ==> Validate(request) == Rejected(MissingObservationsMessage))
      && (ObservationsKey in fields && !fields[ObservationsKey].JObj? && !fields[ObservationsKey].JArr? ==>
            Validate(request) == Rejected(ShapeMessage))
      && (ObservationsKey in fields && fields[ObservationsKey] == JArr([]) ==>
            Validate(request) == Rejected(EmptyArrayMessage))
  {
  }

  /** An array with a non-object element is rejected naming the smallest
      such index. */
  lemma FirstBadElementNamed(request: HttpRequest, i: nat)
    requires request.isJson && request.body.Parsed? && request.body.value.JObj?
    requires ObservationsKey in request.body.value.fields
    requires request.body.value.fields[ObservationsKey].JArr?
    requires var items := request.body.value.fields[ObservationsKey].items;
      i < |items| && !items[i].JObj? && forall j :: 0 <= j < i ==> items[j].JObj?
    ensures Validate(request) == Rejected(ElementMessage(i))
  {
  }

  /** The version a route asks the service for: none for `/latest`. */
  function RouteVersion(route: Route): Option<string> {
    match route
    case LatestRoute => None
    case VersionRoute(v) => Some(v)
  }

  /** `{'error': message}`. */
  function ErrorBody(message: string): Json {
    JObj(map["error" := JStr(message)])
  }

  /** The handlers' `except` clauses: `ValueError` is the caller's fault
      (400, prefixed), `RuntimeError` is reported with its own message (500),
      anything else is an internal error (500, prefixed). */
  function ErrorResponse(e: Exc): (r: Response)
    ensures e.ValueError? <==> r.status == 400
    ensures e.ValueError? ==> r.body == ErrorBody("Invalid request data: " + e.msg)
    ensures e.RuntimeError? ==> r == Response(500, ErrorBody(e.msg))
    ensures !e.ValueError? && !e.RuntimeError? ==> r == Response(500, ErrorBody("Internal server error: " + e.msg))
  {
    match e
    case ValueError(m) => Response(400, ErrorBody("Invalid request data: " + m))
    case RuntimeError(m) => Response(500, ErrorBody(m))
    case _ => Response(500, ErrorBody("Internal server error: " + e.msg))
  }

  /** The success envelope, copied field by field from the service result. */
  function Envelope(result: RulesResult): Json {
    JObj(map[
      "result" := result.result,
      "performance" := JStr(result.performance),
      "timestamp" := JStr(result.timestamp),
      "api_version" := JStr(result.apiVersion),
      "property_id" := result.requestId.GetOr(JNull)])
  }

  /** `evaluate_rules_latest` / `evaluate_rules_versioned`: validate, call
      the service with the route's version, and answer with the envelope or
      the status the exception's kind selects. */
  function Handle(request: HttpRequest, route: Route, repo: RuleRepo, engine: Engine, now: string): (r: Response)
    ensures r.status == 200 || r.status == 400 || r.status == 500
    ensures !Validate(request).Accepted? ==> r.status != 200
    ensures Validate(request).Rejected? ==> r == Response(400, ErrorBody(Validate(request).message))
    ensures Validate(request).Raised? ==> r == ErrorResponse(Validate(request).error)
    ensures r.status == 200 ==>
      Validate(request).Accepted? &&
      EvaluateFireRisk(repo, engine, now, ServiceRequest(request, route)).Success? &&
      r.body == Envelope(EvaluateFireRisk(repo, engine, now, ServiceRequest(request, route)).value)
  {
    match Validate(request)
    case Rejected(message) => Response(400, ErrorBody(message))
    case Raised(e) => ErrorResponse(e)
    case Accepted(observations, propertyId) =>
      var serviceRequest := RulesRequest(observations, RouteVersion(route), propertyId);
      match EvaluateFireRisk(repo, engine, now, serviceRequest)
      case Success(result) => Response(200, Envelope(result))
      case Failure(e) => ErrorResponse(e)
  }

  /** The service request a validated body turns into on a route. */
  function ServiceRequest(request: HttpRequest, route: Route): RulesRequest
    requires request.body.Parsed? && request.body.value.JObj? && ObservationsKey in request.body.value.fields
  {
    var fields := request.body.value.fields;
    RulesRequest(fields[ObservationsKey], RouteVersion(route), Lookup(fields, PropertyIdKey))
  }

  /** Only validated requests reach the service: the response to any other
      request does not depend on the rules, the engine or the clock. */
  lemma RejectedNeverReachesService(request: HttpRequest, route: Route,
    repo: RuleRepo, engine: Engine, now: string, repo': RuleRepo, engine': Engine, now': string)
    requires !Validate(request).Accepted?
    ensures Handle(request, route, repo, engine, now) == Handle(request, route, repo', engine', now')
    ensures Handle(request, route, repo, engine, now).status != 200
  {
  }

  /** A non-JSON request is turned away before anything else is looked at. */
  lemma ContentTypeFirst(request: HttpRequest, route: Route, repo: RuleRepo, engine: Engine, now: string)
    requires !request.isJson
    ensures Handle(request, route, repo, engine, now) == Response(400, ErrorBody(ContentTypeMessage))
  {
  }

  /** Each failed check of the body is answered with 400 and its message. */
  lemma ValidationFailuresAre400(request: HttpRequest, route: Route, repo: RuleRepo, engine: Engine, now: string)
    requires request.isJson && request.body.Parsed? && request.body.value.JObj?
    ensures var fields := request.body.value.fields;
      var response := Handle(request, route, repo, engine, now);
      && (ObservationsKey !in fields ==> response == Response(400, ErrorBody(MissingObservationsMessage)))
      && (ObservationsKey in fields && !fields[ObservationsKey].JObj? && !fields[ObservationsKey].JArr? ==>
            response == Response(400, ErrorBody(ShapeMessage)))
      && (ObservationsKey in fields && fields[ObservationsKey] == JArr([]) ==>
            response == Response(400, ErrorBody(EmptyArrayMessage)))
      && (ObservationsKey in fields && fields[ObservationsKey].JArr? &&
          FirstNonObject(fields[ObservationsKey].items).Some? ==>
            response == Response(400, ErrorBody(ElementMessage(FirstNonObject(fields[ObservationsKey].items).value))))
  {
    var fields := request.body.value.fields;
    ValidationOrder(request);
    if ObservationsKey in fields && fields[ObservationsKey].JArr? && FirstNonObject(fields[ObservationsKey].items).Some? {
      FirstBadElementNamed(request, FirstNonObject(fields[ObservationsKey].items).value);
    }
    if Validate(request).Rejected? {
      RejectedIs400(request, route, repo, engine, now);
    }
  }

  /** A rejection is answered with 400 and the validator's message. */
  lemma RejectedIs400(request: HttpRequest, route: Route, repo: RuleRepo, engine: Engine, now: string)
    requires Validate(request).Rejected?
    ensures Handle(request, route, repo, engine, now) == Response(400, ErrorBody(Validate(request).message))
  {
  }

  /** A JSON body that is `null`, a number or a boolean makes the
      validator's `'observations' in data` raise, which the handler answers
      with 500 and the internal-error prefix. */
  lemma NonObjectBodyIs500(request: HttpRequest, route: Route, repo: RuleRepo, engine: Engine, now: string)
    requires request.isJson && request.body.Parsed?
    requires IsScalarNonString(request.body.value)
    ensures Handle(request, route, repo, engine, now).status == 500
    ensures Handle(request, route, repo, engine, now).body ==
      ErrorBody("Internal server error: " + Validate(request).error.msg)
  {
  }

  /** A JSON list body: `'observations' in data` searches the list, and
      only when the string `"observations"` is an element does
      `data['observations']` run and raise (500); otherwise the key is
      reported missing (400). */
  lemma ListBodyResponse(request: HttpRequest, route: Route, repo: RuleRepo, engine: Engine, now: string)
    requires request.isJson && request.body.Parsed? && request.body.value.JArr?
    ensures var response := Handle(request, route, repo, engine, now);
      && (JStr(ObservationsKey) in request.body.value.items ==>
            response == Response(500, ErrorBody("Internal server error: " + ListIndexMessage)))
      && (JStr(ObservationsKey) !in request.body.value.items ==>
            response == Response(400, ErrorBody(MissingObservationsMessage)))
  {
  }

  /** A JSON string body: `'observations' in data` is a substring search,
      and only when `observations` occurs somewhere in the string does
      `data['observations']` run and raise (500); otherwise the key is
      reported missing (400). */
  lemma StringBodyResponse(request: HttpRequest, route: Route, repo: RuleRepo, engine: Engine, now: string)
    requires request.isJson && request.body.Parsed? && request.body.value.JStr?
    ensures var response := Handle(request, route, repo, engine, now);
      && ((exists at: nat :: OccursAt(request.body.value.s, ObservationsKey, at)) ==>
            response == Response(500, ErrorBody("Internal server error: " + StringIndexMessage)))
      && ((forall at: nat :: !OccursAt(request.body.value.s, ObservationsKey, at)) ==>
            response == Response(400, ErrorBody(MissingObservationsMessage)))
  {
    ContainsIff(request.body.value.s, ObservationsKey);
  }

  /** A body that is not valid JSON is answered with 500 and the
      internal-error prefix, not 400. */
  lemma MalformedBodyIs500(request: HttpRequest, route: Route, repo: RuleRepo, engine: Engine, now: string)
    requires request.isJson && request.body.Malformed?
    ensures Handle(request, route, repo, engine, now) ==
      Response(500, ErrorBody("Internal server error: " + request.body.reason))
  {
  }

  /** A response is 200 exactly when the request is well formed and the
      service evaluates it. */
  lemma SuccessIff(request: HttpRequest, route: Route, repo: RuleRepo, engine: Engine, now: string)
    ensures Handle(request, route, repo, engine, now).status == 200 <==>
      WellFormed(request) && EvaluateFireRisk(repo, engine, now, ServiceRequest(request, route)).Success?
  {
    ValidateAcceptsIff(request);
    if Validate(request).Accepted? {
      var result := EvaluateFireRisk(repo, engine, now, ServiceRequest(request, route));
      if result.Failure? {
        assert Handle(request, route, repo, engine, now) == ErrorResponse(result.error);
      }
    }
  }

  /** The 200 envelope carries the result, the version actually used (the
      pinned one, or the latest for `/latest`), the clock's reading and
      `property_id` from the body (`null` when absent). */
  lemma SuccessEnvelope(request: HttpRequest, route: Route, repo: RuleRepo, engine: Engine, now: string)
    requires WellFormed(request)
    requires EvaluateFireRisk(repo, engine, now, ServiceRequest(request, route)).Success?
    ensures var result := EvaluateFireRisk(repo, engine, now, ServiceRequest(request, route)).value;
      var response := Handle(request, route, repo, engine, now);
      && response.status == 200
      && response.body.JObj?
      && response.body.fields["result"] == result.result
      && response.body.fields["performance"] == JStr(result.performance)
      && response.body.fields["timestamp"] == JStr(now)
      && response.body.fields["api_version"] == JStr(ResolveVersion(repo.listing, RouteVersion(route)).value)
      && response.body.fields["property_id"] == Lookup(request.body.value.fields, PropertyIdKey).GetOr(JNull)
  {
    ValidateAcceptsIff(request);
    var serviceRequest := ServiceRequest(request, route);
    assert serviceRequest.version == RouteVersion(route);
    assert serviceRequest.requestId == Lookup(request.body.value.fields, PropertyIdKey);
    var result := EvaluateFireRisk(repo, engine, now, serviceRequest).value;
    assert result.apiVersion == ResolveVersion(repo.listing, RouteVersion(route)).value;
    assert result.requestId.GetOr(JNull) == Lookup(request.body.value.fields, PropertyIdKey).GetOr(JNull);
    HandleServiceSuccess(request, route, repo, engine, now);
    EnvelopeFields(result);
  }

  /** An accepted request the service evaluates is answered with the envelope. */
  lemma HandleServiceSuccess(request: HttpRequest, route: Route, repo: RuleRepo, engine: Engine, now: string)
    requires Validate(request).Accepted?
    requires EvaluateFireRisk(repo, engine, now, ServiceRequest(request, route)).Success?
    ensures Handle(request, route, repo, engine, now) ==
      Response(200, Envelope(EvaluateFireRisk(repo, engine, now, ServiceRequest(request, route)).value))
  {
  }

  lemma EnvelopeFields(result: RulesResult)
    ensures Envelope(result).JObj?
    ensures Envelope(result).fields["result"] == result.result
    ensures Envelope(result).fields["performance"] == JStr(result.performance)
    ensures Envelope(result).fields["timestamp"] == JStr(result.timestamp)
    ensures Envelope(result).fields["api_version"] == JStr(result.apiVersion)
    ensures Envelope(result).fields["property_id"] == result.requestId.GetOr(JNull)
  {
  }

  /** A well-formed request the service cannot evaluate gets status 500 and
      the service's own `Failed to evaluate rules: ...` message. */
  lemma ServiceFailureIs500(request: HttpRequest, route: Route, repo: RuleRepo, engine: Engine, now: string)
    requires WellFormed(request)
    requires EvaluateFireRisk(repo, engine, now, ServiceRequest(request, route)).Failure?
    ensures Handle(request, route, repo, engine, now).status == 500
    ensures Handle(request, route, repo, engine, now).body ==
      ErrorBody(EvaluateFireRisk(repo, engine, now, ServiceRequest(request, route)).error.msg)
  {
    ValidateAcceptsIff(request);
  }

  /** `get_available_versions` handler: always 200 (the listing never
      raises), with every version newest first and the latest one, or
      `null`. */
  function VersionsResponse(listing: Listing): (r: Response)
    ensures r.status == 200 && r.body.JObj?
    ensures "versions" in r.body.fields && r.body.fields["versions"].JArr?
    ensures var items := r.body.fields["versions"].items;
      && |items| == |AvailableVersions(listing)|
      && (forall i :: 0 <= i < |items| ==> items[i] == JStr(AvailableVersions(listing)[i]))
    ensures "latest" in r.body.fields
    ensures r.body.fields["latest"] == JNull <==> AvailableVersions(listing) == []
    ensures AvailableVersions(listing) != [] ==> r.body.fields["latest"] == r.body.fields["versions"].items[0]
  {
    var versions := AvailableVersions(listing);
    var latest := match LatestVersion(listing) case Some(v) => JStr(v) case None => JNull;
    Response(200, JObj(map[
      "versions" := JArr(seq(|versions|, i requires 0 <= i < |versions| => JStr(versions[i]))),
      "latest" := latest]))
  }

  const RoutePrefix: string := "/rules"

  /** Which evaluation handler a request path reaches: `/rules/latest`, or
      `/rules/version/<version>` where Flask's default converter takes a
      non-empty segment without `/`. */
  function RouteOf(path: string): (r: Option<Route>)
    ensures r == Some(LatestRoute) <==> path == RoutePrefix + "/latest"
    ensures r.Some? && r.value.VersionRoute? ==>
      path == RoutePrefix + "/version/" + r.value.version && IsSegment(r.value.version)
  {
    var versionPrefix := RoutePrefix + "/version/";
    if path == RoutePrefix + "/latest" then Some(LatestRoute)
    else if |versionPrefix| <= |path| && path[..|versionPrefix|] == versionPrefix && IsSegment(path[|versionPrefix|..])
    then
      assert path == versionPrefix + path[|versionPrefix|..];
      Some(VersionRoute(path[|versionPrefix|..]))
    else None
  }

  /** A path segment Flask's `<version>` matches. */
  predicate IsSegment(s: string) {
    |s| > 0 && forall i :: 0 <= i < |s| ==> s[i] != '/'
  }

  /** A pinned version with no rules file is reported as a 500 carrying the
      wrapped file-not-found message, not as a distinct not-found status. */
  lemma UnknownVersionIs500(request: HttpRequest, version: string, repo: RuleRepo, engine: Engine, now: string)
    requires WellFormed(request)
    requires RulePath(repo.basePath, version) !in repo.files
    ensures Handle(request, VersionRoute(version), repo, engine, now) ==
      Response(500, ErrorBody(FailurePrefix + MissingFileMessage(version, RulePath(repo.basePath, version))))
  {
    ValidateAcceptsIff(request);
    MissingRulesFileFails(repo, engine, now, ServiceRequest(request, VersionRoute(version)));
  }
}

=== FILE: rules_service.dfy ===
/** `RulesService` (src/application/services/rules_service.py): version
    resolution, rule-file lookup, per-observation evaluation through the
    decision engine, performance aggregation and uniform error wrapping.
    The engine and the filesystem are parameters. */
module RulesService {
  import opened Wrappers
  import opened Json
  import opened Text
  import opened VersionCatalog
  import opened Performance

  /** What `decision.evaluate(observation)` returns, as far as the service
      reads it: the optional `result` and `performance` entries. */
  datatype EngineOutput = EngineOutput(result: Option<Json>, performance: Option<string>)

  /** A compiled decision, as an opaque handle issued by the engine. */
  datatype Decision = Decision(handle: nat)

  /** The decision engine: `create_decision(rule_text)` and
      `decision.evaluate(observation)`, each of which may raise; a failure
      carries `str(e)` of what was raised. */
  datatype Engine = Engine(
    createDecision: string -> Result<Decision, string>,
    evaluate: (Decision, Json) -> Result<EngineOutput, string>)

  /** The rules base directory: its path, its listing, and the readable
      files below it by full path (`os.path.exists` then `open().read()`). */
  datatype RuleRepo = RuleRepo(basePath: string, listing: Listing, files: map<string, string>)

  /** `RuleEvaluationRequest`. */
  datatype RulesRequest = RulesRequest(observations: Json, version: Option<string>, requestId: Option<Json>)

  /** `RuleEvaluationResult`; the timestamp is the clock's reading, already
      in ISO form. */
  datatype RulesResult = RulesResult(
    result: Json, performance: string, timestamp: string, apiVersion: string, requestId: Option<Json>)

  const RulesFileName: string := "fire_risk.json"
  const NoVersionsMessage: string := "No rule versions available"
  const FailurePrefix: string := "Failed to evaluate rules: "

  /** `posixpath.join(a, b)`: an absolute `b` replaces `a`; otherwise a
      separator is inserted unless `a` is empty or already ends with one. */
  function PathJoin(a: string, b: string): (r: string)
    ensures |b| > 0 && b[0] == '/' ==> r == b
    ensures !(|b| > 0 && b[0] == '/') ==>
      && |a| + |b| <= |r| && r[..|a|] == a && r[|r| - |b|..] == b
      && (|r| == |a| + |b| <==> |a| == 0 || a[|a| - 1] == '/')
      && (|r| != |a| + |b| ==> |r| == |a| + |b| + 1 && r[|a|] == '/')
  {
    if |b| > 0 && b[0] == '/' then b
    else if |a| == 0 || a[|a| - 1] == '/' then a + b
    else a + "/" + b
  }

  /** `os.path.join(base, version, 'fire_risk.json')`. */
  function RulePath(base: string, version: string): string {
    PathJoin(PathJoin(base, version), RulesFileName)
  }

  /** For a plain base directory and version name, the rules file sits at
      `base/version/fire_risk.json`. */
  lemma RulePathLayout(base: string, version: string)
    requires |base| > 0 && base[|base| - 1] != '/'
    requires |version| > 0 && forall i :: 0 <= i < |version| ==> version[i] != '/'
    ensures RulePath(base, version) == base + "/" + version + "/" + RulesFileName
  {
    assert version[|version| - 1] != '/';
    assert (base + "/" + version)[|base + "/" + version| - 1] == version[|version| - 1];
  }

  function MissingFileMessage(version: string, path: string): string {
    "Rules file not found for version " + version + ": " + path
  }

  /** The version an evaluation uses: the requested one, else the latest. */
  function ResolveVersion(listing: Listing, requested: Option<string>): (r: Option<string>)
    ensures requested.Some? ==> r == requested
    ensures requested.None? && LatestVersion(listing).Some? ==> r == Some(LatestVersion(listing).value)
    ensures requested.None? && AvailableVersions(listing) == [] ==> r.None?
  {
    match requested
    case Some(v) => Some(v)
    case None =>
      match LatestVersion(listing)
      case Some(v) => Some(v)
      case None => None
  }

  /** `load_rules_by_version`: the content of `base/version/fire_risk.json`,
      the version defaulting to the latest; `FileNotFoundError` when there is
      no version or no such file. */
  function LoadRules(repo: RuleRepo, version: Option<string>): (r: Result<string, Exc>)
    ensures r.Success? <==>
      ResolveVersion(repo.listing, version).Some? &&
      RulePath(repo.basePath, ResolveVersion(repo.listing, version).value) in repo.files
    ensures r.Success? ==> r.value == repo.files[RulePath(repo.basePath, ResolveVersion(repo.listing, version).value)]
    ensures ResolveVersion(repo.listing, version).None? ==> r == Failure(FileNotFoundError(NoVersionsMessage))
    ensures r.Failure? ==> r.error.FileNotFoundError?
    ensures ResolveVersion(repo.listing, version).Some? && r.Failure? ==>
      r.error == FileNotFoundError(MissingFileMessage(ResolveVersion(repo.listing, version).value,
        RulePath(repo.basePath, ResolveVersion(repo.listing, version).value)))
  {
    match ResolveVersion(repo.listing, version)
    case None => Failure(FileNotFoundError(NoVersionsMessage))
    case Some(v) =>
      var path := RulePath(repo.basePath, v);
      if path in repo.files then Success(repo.files[path])
      else Failure(FileNotFoundError(MissingFileMessage(v, path)))
  }

  /** Loading the rule file and compiling it into a decision. */
  function Prepare(repo: RuleRepo, engine: Engine, version: Option<string>): (r: Result<Decision, string>)
    ensures r.Success? ==> (LoadRules(repo, version).Success? &&
      engine.createDecision(LoadRules(repo, version).value) == Success(r.value))
    ensures r.Success? ==> ResolveVersion(repo.listing, version).Some?
    ensures LoadRules(repo, version).Failure? ==> r == Failure(LoadRules(repo, version).error.msg)
    ensures LoadRules(repo, version).Success? ==> r == engine.createDecision(LoadRules(repo, version).value)
  {
    match LoadRules(repo, version)
    case Failure(e) => Failure(e.msg)
    case Success(ruleText) => engine.createDecision(ruleText)
  }

  /** One pass of the batch loop: evaluate, keep `result` (default `{}`), and
      read the performance measurement's contribution. */
  function EvaluateOne(engine: Engine, decision: Decision, observation: Json): (r: Result<(Json, nat), string>)
    ensures engine.evaluate(decision, observation).Failure? ==> r == Failure(engine.evaluate(decision, observation).error)
    ensures r.Success? ==> engine.evaluate(decision, observation).Success?
    ensures r.Success? ==> r.value.0 == engine.evaluate(decision, observation).value.result.GetOr(EmptyObject)
    ensures r.Success? ==> Success(r.value.1) == Contribution(engine.evaluate(decision, observation).value.performance)
    ensures engine.evaluate(decision, observation).Success? ==>
      var out := engine.evaluate(decision, observation).value;
      match Contribution(out.performance)
      case Success(t) => r == Success((out.result.GetOr(EmptyObject), t))
      case Failure(e) => r == Failure(e)
  {
    var out :- engine.evaluate(decision, observation);
    var t :- Contribution(out.performance);
    Success((out.result.GetOr(EmptyObject), t))
  }

  /** The batch loop over a list of observations, in order, stopping at the
      first failure: the results, and the total of the contributions. */
  function EvaluateAll(engine: Engine, decision: Decision, observations: seq<Json>): (r: Result<(seq<Json>, nat), string>)
    ensures r.Success? <==> forall i :: 0 <= i < |observations| ==> EvaluateOne(engine, decision, observations[i]).Success?
    ensures r.Success? ==> |r.value.0| == |observations|
    ensures r.Success? ==> forall i :: 0 <= i < |observations| ==>
      r.value.0[i] == EvaluateOne(engine, decision, observations[i]).value.0
    ensures r.Failure? ==>
      exists i :: 0 <= i < |observations| && FailsFirstWith(engine, decision, observations, i, r.error)
  {
    if |observations| == 0 then Success(([], 0))
    else
      var init := observations[..|observations| - 1];
      var last := observations[|observations| - 1];
      assert forall i :: 0 <= i < |init| ==> init[i] == observations[i];
      match EvaluateAll(engine, decision, init)
      case Failure(e) =>
        assert exists i :: 0 <= i < |observations| && FailsFirstWith(engine, decision, observations, i, e) by {
          var i :| 0 <= i < |init| && FailsFirstWith(engine, decision, init, i, e);
          assert FailsFirstWith(engine, decision, observations, i, e);
        }
        Failure(e)
      case Success(prefix) =>
        match EvaluateOne(engine, decision, last)
        case Failure(e) =>
          assert FailsFirstWith(engine, decision, observations, |observations| - 1, e);
          Failure(e)
        case Success(one) => Success((prefix.0 + [one.0], prefix.1 + one.1))
  }

  /** Observation `i` is the first one whose evaluation fails. */
  predicate FirstFailure(engine: Engine, decision: Decision, observations: seq<Json>, i: nat)
    requires i < |observations|
  {
    EvaluateOne(engine, decision, observations[i]).Failure? &&
    forall j :: 0 <= j < i ==> EvaluateOne(engine, decision, observations[j]).Success?
  }

  /** Observation `i` is the first to fail, and fails with `error`. */
  predicate FailsFirstWith(engine: Engine, decision: Decision, observations: seq<Json>, i: nat, error: string)
    requires i < |observations|
  {
    FirstFailure(engine, decision, observations, i) && EvaluateOne(engine, decision, observations[i]).error == error
  }

  /** The batch total is the sum of the per-observation contributions. */
  lemma {:induction false} EvaluateAllTotal(engine: Engine, decision: Decision, observations: seq<Json>, ts: seq<nat>)
    requires |ts| == |observations|
    requires forall i :: 0 <= i < |observations| ==>
      EvaluateOne(engine, decision, observations[i]).Success? && EvaluateOne(engine, decision, observations[i]).value.1 == ts[i]
    ensures EvaluateAll(engine, decision, observations).Success?
    ensures EvaluateAll(engine, decision, observations).value.1 == Sum(ts)
  {
    if |observations| > 0 {
      var n := |observations| - 1;
      assert forall i :: 0 <= i < n ==> observations[..n][i] == observations[i];
      EvaluateAllTotal(engine, decision, observations[..n], ts[..n]);
    }
  }

  /** The service body before wrapping: a failure carries `str(e)`. Loading
      and compiling come first; a list is evaluated element by element and
      gives a list of the same length, anything else is one evaluation. */
  function Evaluate(repo: RuleRepo, engine: Engine, now: string, request: RulesRequest): (r: Result<RulesResult, string>)
    ensures Prepare(repo, engine, ResolveVersion(repo.listing, request.version)).Failure? ==>
      r == Failure(Prepare(repo, engine, ResolveVersion(repo.listing, request.version)).error)
    ensures r.Success? && request.observations.JArr? ==>
      r.value.result.JArr? && |r.value.result.items| == |request.observations.items|
    ensures r.Failure? && request.observations.JArr? &&
            Prepare(repo, engine, ResolveVersion(repo.listing, request.version)).Success? ==>
      exists i :: 0 <= i < |request.observations.items| &&
        FailsFirstWith(engine, Prepare(repo, engine, ResolveVersion(repo.listing, request.version)).value,
          request.observations.items, i, r.error)
    ensures !request.observations.JArr? && Prepare(repo, engine, ResolveVersion(repo.listing, request.version)).Success? ==>
      var decision := Prepare(repo, engine, ResolveVersion(repo.listing, request.version)).value;
      engine.evaluate(decision, request.observations).Failure? ==>
        r == Failure(engine.evaluate(decision, request.observations).error)
  {
    var version := ResolveVersion(repo.listing, request.version);
    var decision :- Prepare(repo, engine, version);
    match request.observations
    case JArr(items) =>
      var batch :- EvaluateAll(engine, decision, items);
      Success(RulesResult(JArr(batch.0), Render(batch.1), now, version.value, request.requestId))
    case _ =>
      var out :- engine.evaluate(decision, request.observations);
      Success(RulesResult(out.result.GetOr(EmptyObject), out.performance.GetOr(""), now, version.value, request.requestId))
  }

  /** `evaluate_fire_risk`: every failure, whatever raised it, surfaces as a
      `RuntimeError` whose message starts `Failed to evaluate rules: `; on
      success the result is stamped with the version actually used (the
      requested one, else the latest), the clock's reading and the caller's
      request id. */
  function EvaluateFireRisk(repo: RuleRepo, engine: Engine, now: string, request: RulesRequest): (r: Result<RulesResult, Exc>)
    ensures r.Failure? ==> r.error.RuntimeError? && FailurePrefix <= r.error.msg
    ensures r.Failure? <==> Evaluate(repo, engine, now, request).Failure?
    ensures r.Failure? ==> r.error == RuntimeError(FailurePrefix + Evaluate(repo, engine, now, request).error)
    ensures r.Success? ==> ResolveVersion(repo.listing, request.version).Some?
    ensures r.Success? ==> r.value.apiVersion == ResolveVersion(repo.listing, request.version).value
    ensures r.Success? ==> r.value.requestId == request.requestId && r.value.timestamp == now
  {
    match Evaluate(repo, engine, now, request)
    case Success(result) => Success(result)
    case Failure(e) => Failure(RuntimeError(FailurePrefix + e))
  }

  /** An evaluation succeeds exactly when a version resolves, its rules file
      exists and compiles, and every observation evaluates (with a readable
      measurement when a list was sent). */
  lemma EvaluateSucceedsIff(repo: RuleRepo, engine: Engine, now: string, request: RulesRequest)
    ensures EvaluateFireRisk(repo, engine, now, request).Success? <==>
      var version := ResolveVersion(repo.listing, request.version);
      var prepared := Prepare(repo, engine, version);
      && version.Some?
      && RulePath(repo.basePath, version.value) in repo.files
      && engine.createDecision(repo.files[RulePath(repo.basePath, version.value)]).Success?
      && (if request.observations.JArr? then
            forall i :: 0 <= i < |request.observations.items| ==>
              EvaluateOne(engine, prepared.value, request.observations.items[i]).Success?
          else engine.evaluate(prepared.value, request.observations).Success?)
  {
  }

  /** With no version requested and none on disk, the failure is the
      `RuntimeError` for "No rule versions available", not a distinct
      not-found error. */
  lemma NoVersionFails(repo: RuleRepo, engine: Engine, now: string, request: RulesRequest)
    requires request.version.None? && AvailableVersions(repo.listing) == []
    ensures EvaluateFireRisk(repo, engine, now, request) == Failure(RuntimeError(FailurePrefix + NoVersionsMessage))
  {
  }

  /** A requested version without a rules file fails with the wrapped
      file-not-found message naming the version and the path; there is no
      fallback to the latest version. */
  lemma MissingRulesFileFails(repo: RuleRepo, engine: Engine, now: string, request: RulesRequest)
    requires request.version.Some?
    requires RulePath(repo.basePath, request.version.value) !in repo.files
    ensures EvaluateFireRisk(repo, engine, now, request) == Failure(RuntimeError(
      FailurePrefix + MissingFileMessage(request.version.value, RulePath(repo.basePath, request.version.value))))
  {
  }

  /** With no version requested, the latest one is used, and a missing file
      for it is reported naming that version and its path. */
  lemma MissingLatestFileFails(repo: RuleRepo, engine: Engine, now: string, request: RulesRequest)
    requires request.version.None? && LatestVersion(repo.listing).Some?
    requires RulePath(repo.basePath, LatestVersion(repo.listing).value) !in repo.files
    ensures var latest := LatestVersion(repo.listing).value;
      EvaluateFireRisk(repo, engine, now, request) ==
        Failure(RuntimeError(FailurePrefix + MissingFileMessage(latest, RulePath(repo.basePath, latest))))
  {
  }

  /** A rules file the engine cannot compile is reported with the engine's
      own message behind the prefix. */
  lemma CompileFailureReported(repo: RuleRepo, engine: Engine, now: string, request: RulesRequest)
    requires LoadRules(repo, ResolveVersion(repo.listing, request.version)).Success?
    requires engine.createDecision(LoadRules(repo, ResolveVersion(repo.listing, request.version)).value).Failure?
    ensures EvaluateFireRisk(repo, engine, now, request) == Failure(RuntimeError(FailurePrefix +
      engine.createDecision(LoadRules(repo, ResolveVersion(repo.listing, request.version)).value).error))
  {
  }

  /** A single observation the engine cannot evaluate is reported with the
      engine's own message behind the prefix. */
  lemma SingleFailureReported(repo: RuleRepo, engine: Engine, now: string, request: RulesRequest)
    requires !request.observations.JArr?
    requires Prepare(repo, engine, ResolveVersion(repo.listing, request.version)).Success?
    requires engine.evaluate(Prepare(repo, engine, ResolveVersion(repo.listing, request.version)).value,
      request.observations).Failure?
    ensures EvaluateFireRisk(repo, engine, now, request) == Failure(RuntimeError(FailurePrefix +
      engine.evaluate(Prepare(repo, engine, ResolveVersion(repo.listing, request.version)).value,
        request.observations).error))
  {
  }

  /** A list of observations gives a list of results of the same length, in
      input order, each the engine's `result` for that observation or `{}`;
      the performance is the rendered total. */
  lemma {:induction false} BatchShape(repo: RuleRepo, engine: Engine, now: string, request: RulesRequest)
    requires request.observations.JArr?
    requires EvaluateFireRisk(repo, engine, now, request).Success?
    ensures var r := EvaluateFireRisk(repo, engine, now, request).value;
      var decision := Prepare(repo, engine, ResolveVersion(repo.listing, request.version)).value;
      var items := request.observations.items;
      && r.result.JArr?
      && |r.result.items| == |items|
      && (forall i :: 0 <= i < |items| ==>
            engine.evaluate(decision, items[i]).Success? &&
            r.result.items[i] == engine.evaluate(decision, items[i]).value.result.GetOr(EmptyObject))
      && r.performance == Render(EvaluateAll(engine, decision, items).value.1)
  {
    var decision := Prepare(repo, engine, ResolveVersion(repo.listing, request.version)).value;
    var items := request.observations.items;
    assert EvaluateAll(engine, decision, items).Success?;
  }

  /** A list whose every observation the engine evaluates, each with a
      readable measurement, is evaluated as a whole. */
  lemma BatchSucceedsWhenReadable(repo: RuleRepo, engine: Engine, now: string, request: RulesRequest)
    requires request.observations.JArr?
    requires Prepare(repo, engine, ResolveVersion(repo.listing, request.version)).Success?
    requires var decision := Prepare(repo, engine, ResolveVersion(repo.listing, request.version)).value;
      forall i :: 0 <= i < |request.observations.items| ==>
        engine.evaluate(decision, request.observations.items[i]).Success? &&
        Contribution(engine.evaluate(decision, request.observations.items[i]).value.performance).Success?
    ensures EvaluateFireRisk(repo, engine, now, request).Success?
  {
    var decision := Prepare(repo, engine, ResolveVersion(repo.listing, request.version)).value;
    var items := request.observations.items;
    forall i | 0 <= i < |items| ensures EvaluateOne(engine, decision, items[i]).Success? {
    }
    assert EvaluateAll(engine, decision, items).Success?;
  }

  /** A single observation's result and performance are the engine's, passed
      through unchanged (`{}` and `''` when absent). */
  lemma SingleShape(repo: RuleRepo, engine: Engine, now: string, request: RulesRequest)
    requires !request.observations.JArr?
    requires EvaluateFireRisk(repo, engine, now, request).Success?
    ensures var r := EvaluateFireRisk(repo, engine, now, request).value;
      var decision := Prepare(repo, engine, ResolveVersion(repo.listing, request.version)).value;
      var out := engine.evaluate(decision, request.observations);
      && out.Success?
      && r.result == out.value.result.GetOr(EmptyObject)
      && r.performance == out.value.performance.GetOr("")
  {
  }

  /** Any failure leaves no partial result: when some observation of a list
      fails, the whole evaluation fails with that observation's error. */
  lemma {:induction false} BatchFailsFast(repo: RuleRepo, engine: Engine, now: string, request: RulesRequest, i: nat)
    requires request.observations.JArr? && i < |request.observations.items|
    requires Prepare(repo, engine, ResolveVersion(repo.listing, request.version)).Success?
    requires FirstFailure(engine, Prepare(repo, engine, ResolveVersion(repo.listing, request.version)).value,
      request.observations.items, i)
    ensures EvaluateFireRisk(repo, engine, now, request) == Failure(RuntimeError(FailurePrefix +
      EvaluateOne(engine, Prepare(repo, engine, ResolveVersion(repo.listing, request.version)).value,
        request.observations.items[i]).error))
  {
    var decision := Prepare(repo, engine, ResolveVersion(repo.listing, request.version)).value;
    var items := request.observations.items;
    var r := EvaluateAll(engine, decision, items);
    assert r.Failure?;
    var j :| 0 <= j < |items| && FailsFirstWith(engine, decision, items, j, r.error);
    assert j == i;
  }
}

=== FILE: text.dfy ===
/** String helpers with Python's semantics: ASCII decimal digits, `int()` on a
    digit string, integer rendering, `in` on strings, `str.replace(p, '')`,
    `str.strip()` and `str.rstrip(chars)`. */
module Text {

  predicate IsDigitChar(c: char) {
    '0' <= c <= '9'
  }

  /** `str.isdigit()` restricted to ASCII: non-empty and digits only. */
  predicate IsDigits(s: string) {
    |s| > 0 && forall i :: 0 <= i < |s| ==> IsDigitChar(s[i])
  }

  /** A decimal rendering without superfluous leading zeros. */
  predicate IsCanonical(s: string) {
    IsDigits(s) && (s[0] != '0' || |s| == 1)
  }

  function DigitValue(c: char): (d: nat)
    requires IsDigitChar(c)
    ensures d < 10
  {
    (c as int - '0' as int) as nat
  }

  function DigitChar(d: nat): (c: char)
    requires d < 10
    ensures IsDigitChar(c) && DigitValue(c) == d
  {
    ('0' as int + d) as char
  }

  /** `int(s)` for a string of ASCII digits (0 for the empty string). */
  function DigitsValue(s: string): nat
    requires forall i :: 0 <= i < |s| ==> IsDigitChar(s[i])
  {
    if |s| == 0 then 0 else DigitsValue(s[..|s| - 1]) * 10 + DigitValue(s[|s| - 1])
  }

  /** `str(n)` for a natural number. */
  function NatToString(n: nat): (s: string)
    ensures IsCanonical(s)
    ensures DigitsValue(s) == n
  {
    if n < 10 then [DigitChar(n)]
    else
      var front := NatToString(n / 10);
      var s := front + [DigitChar(n % 10)];
      assert s[..|s| - 1] == front;
      s
  }

  /** A canonical digit string is determined by its value. */
  lemma {:induction false} CanonicalUnique(s: string, t: string)
    requires IsCanonical(s) && IsCanonical(t)
    requires DigitsValue(s) == DigitsValue(t)
    ensures s == t
    decreases |s|
  {
    var n := DigitsValue(s);
    if |s| == 1 && |t| == 1 {
    } else if |s| == 1 {
      ValueOfLong(t);
    } else if |t| == 1 {
      ValueOfLong(s);
    } else {
      var s', t' := s[..|s| - 1], t[..|t| - 1];
      assert IsCanonical(s') && IsCanonical(t');
      assert DigitsValue(s') == n / 10 == DigitsValue(t');
      CanonicalUnique(s', t');
      assert DigitValue(s[|s| - 1]) == n % 10 == DigitValue(t[|t| - 1]);
      assert s[|s| - 1] == t[|t| - 1];
      assert s == s' + [s[|s| - 1]] && t == t' + [t[|t| - 1]];
    }
  }

  /** A canonical digit string of two or more digits is worth at least ten. */
  lemma {:induction false} ValueOfLong(s: string)
    requires IsCanonical(s) && |s| >= 2
    ensures DigitsValue(s) >= 10
    decreases |s|
  {
    var init := s[..|s| - 1];
    if |init| == 1 {
      assert init[0] == s[0];
      assert DigitValue(init[0]) >= 1;
    } else {
      assert IsCanonical(init);
      ValueOfLong(init);
    }
  }

  /** `str(int(s)) == s` for every canonical digit string. */
  lemma RenderParse(s: string)
    requires IsCanonical(s)
    ensures NatToString(DigitsValue(s)) == s
  {
    CanonicalUnique(NatToString(DigitsValue(s)), s);
  }

  /** Python's `pat in s` on strings: `pat` occurs as a contiguous piece of `s`. */
  predicate Contains(s: string, pat: string)
    decreases |s|
  {
    |pat| <= |s| && (s[..|pat|] == pat || Contains(s[1..], pat))
  }

  /** `pat` occurs in `s` starting at position `at`. */
  predicate OccursAt(s: string, pat: string, at: nat) {
    at + |pat| <= |s| && s[at..at + |pat|] == pat
  }

  /** An occurrence of `pat` at position `at` makes `pat in s` true. */
  lemma {:induction false} ContainsAt(s: string, pat: string, at: nat)
    requires OccursAt(s, pat, at)
    ensures Contains(s, pat)
    decreases at
  {
    if at > 0 {
      assert s[1..][at - 1..at - 1 + |pat|] == s[at..at + |pat|];
      ContainsAt(s[1..], pat, at - 1);
    } else {
      assert s[..|pat|] == pat;
    }
  }

  /** Where `pat in s` holds, the position of the first occurrence. */
  function Find(s: string, pat: string): (at: nat)
    requires Contains(s, pat)
    ensures OccursAt(s, pat, at)
    ensures forall k :: 0 <= k < at ==> !OccursAt(s, pat, k)
    decreases |s|
  {
    if s[..|pat|] == pat then 0
    else
      var at := Find(s[1..], pat);
      assert s[1..][at..at + |pat|] == s[at + 1..at + 1 + |pat|];
      assert !OccursAt(s, pat, 0);
      assert forall k :: 1 <= k < at + 1 ==> !OccursAt(s, pat, k) by {
        forall k | 1 <= k < at + 1
          ensures !OccursAt(s, pat, k)
        {
          assert !OccursAt(s[1..], pat, k - 1);
          if k + |pat| <= |s| {
            assert s[1..][k - 1..k - 1 + |pat|] == s[k..k + |pat|];
          }
        }
      }
      at + 1
  }

  /** Python's `in` on strings is "occurs somewhere". */
  lemma ContainsIff(s: string, pat: string)
    ensures Contains(s, pat) <==> exists at: nat :: OccursAt(s, pat, at)
  {
    if Contains(s, pat) {
      assert OccursAt(s, pat, Find(s, pat));
    }
    if exists at: nat :: OccursAt(s, pat, at) {
      var at: nat :| OccursAt(s, pat, at);
      ContainsAt(s, pat, at);
    }
  }

  /** Python's `s.replace(pat, '')`: every non-overlapping occurrence of
      `pat`, scanned left to right, removed. */
  function RemoveAll(s: string, pat: string): (r: string)
    requires |pat| > 0
    ensures |r| <= |s|
    decreases |s|
  {
    if |s| < |pat| then s
    else if s[..|pat|] == pat then RemoveAll(s[|pat|..], pat)
    else [s[0]] + RemoveAll(s[1..], pat)
  }

  /** Without an occurrence of `pat` there is nothing to remove; with one,
      at least `|pat|` characters go. */
  lemma {:induction false} RemoveAllEffect(s: string, pat: string)
    requires |pat| > 0
    ensures !Contains(s, pat) ==> RemoveAll(s, pat) == s
    ensures Contains(s, pat) ==> |RemoveAll(s, pat)| + |pat| <= |s|
    decreases |s|
  {
    if |s| >= |pat| {
      if s[..|pat|] == pat {
        assert Contains(s, pat);
      } else {
        RemoveAllEffect(s[1..], pat);
        assert [s[0]] + s[1..] == s;
      }
    }
  }

  /** Characters that cannot start `pat` pass through `RemoveAll` untouched. */
  lemma {:induction false} RemoveAllPrefix(x: string, y: string, pat: string)
    requires |pat| > 0
    requires forall i :: 0 <= i < |x| ==> x[i] != pat[0]
    ensures RemoveAll(x + y, pat) == x + RemoveAll(y, pat)
    decreases |x|
  {
    if |x| == 0 {
      assert x + y == y;
    } else {
      var s, t := x + y, x[1..] + y;
      assert s[0] == x[0] && s[1..] == t;
      RemoveAllHead(s, pat);
      RemoveAllPrefix(x[1..], y, pat);
      var rest := RemoveAll(y, pat);
      assert RemoveAll(t, pat) == x[1..] + rest;
      assert [x[0]] + (x[1..] + rest) == x + rest;
    }
  }

  /** A first character that cannot start `pat` is kept. */
  lemma RemoveAllHead(s: string, pat: string)
    requires |pat| > 0 && |s| > 0 && s[0] != pat[0]
    ensures RemoveAll(s, pat) == [s[0]] + RemoveAll(s[1..], pat)
  {
    if |s| >= |pat| {
      assert s[..|pat|][0] != pat[0];
    } else {
      assert [s[0]] + s[1..] == s;
    }
  }

  /** The characters Python's `str.isspace()` accepts, so `str.strip()` removes. */
  const Whitespace: set<char> := {
    '\t', '\n', '\U{000B}', '\U{000C}', '\r', '\U{001C}', '\U{001D}', '\U{001E}', '\U{001F}',
    ' ', '\U{0085}', '\U{00A0}', '\U{1680}',
    '\U{2000}', '\U{2001}', '\U{2002}', '\U{2003}', '\U{2004}', '\U{2005}', '\U{2006}',
    '\U{2007}', '\U{2008}', '\U{2009}', '\U{200A}',
    '\U{2028}', '\U{2029}', '\U{202F}', '\U{205F}', '\U{3000}'
  }

  /** `s.lstrip(chars)`: the longest suffix of `s` not starting with one of `chars`. */
  function TrimStart(s: string, chars: set<char>): (r: string)
    ensures |r| <= |s| && r == s[|s| - |r|..]
    ensures forall i :: 0 <= i < |s| - |r| ==> s[i] in chars
    ensures r == [] || r[0] !in chars
  {
    if |s| > 0 && s[0] in chars then TrimStart(s[1..], chars) else s
  }

  /** `s.rstrip(chars)`: the longest prefix of `s` not ending with one of `chars`. */
  function TrimEnd(s: string, chars: set<char>): (r: string)
    ensures |r| <= |s| && r == s[..|r|]
    ensures forall i :: |r| <= i < |s| ==> s[i] in chars
    ensures r == [] || r[|r| - 1] !in chars
  {
    if |s| > 0 && s[|s| - 1] in chars then TrimEnd(s[..|s| - 1], chars) else s
  }

  /** `s.strip(chars)`: `chars` removed from both ends. */
  function StripChars(s: string, chars: set<char>): string {
    TrimEnd(TrimStart(s, chars), chars)
  }

  /** `s.strip()`: whitespace removed from both ends. */
  function Strip(s: string): string {
    StripChars(s, Whitespace)
  }

  /** How many characters `s.strip(chars)` removes from the front. */
  function LeadingCount(s: string, chars: set<char>): nat {
    |s| - |TrimStart(s, chars)|
  }

  function LeadingWhitespace(s: string): nat {
    LeadingCount(s, Whitespace)
  }

  /** `s.strip()` is empty exactly when every character of `s` is whitespace;
      otherwise it is the piece of `s` between its first and last
      non-whitespace characters, and everything around it is whitespace. */
  lemma StripSpec(s: string)
    ensures Strip(s) == [] <==> forall i :: 0 <= i < |s| ==> s[i] in Whitespace
    ensures LeadingWhitespace(s) + |Strip(s)| <= |s|
    ensures Strip(s) == s[LeadingWhitespace(s)..LeadingWhitespace(s) + |Strip(s)|]
    ensures forall i :: 0 <= i < LeadingWhitespace(s) ==> s[i] in Whitespace
    ensures forall i :: LeadingWhitespace(s) + |Strip(s)| <= i < |s| ==> s[i] in Whitespace
    ensures Strip(s) == [] || (Strip(s)[0] !in Whitespace && Strip(s)[|Strip(s)| - 1] !in Whitespace)
  {
    assert Strip(s) == StripChars(s, Whitespace);
    assert LeadingWhitespace(s) == LeadingCount(s, Whitespace);
    StripCharsSpec(s, Whitespace);
  }

  /** The same for any set of characters. */
  lemma StripCharsSpec(s: string, chars: set<char>)
    ensures StripChars(s, chars) == [] <==> forall i :: 0 <= i < |s| ==> s[i] in chars
    ensures LeadingCount(s, chars) + |StripChars(s, chars)| <= |s|
    ensures StripChars(s, chars) == s[LeadingCount(s, chars)..LeadingCount(s, chars) + |StripChars(s, chars)|]
    ensures forall i :: 0 <= i < LeadingCount(s, chars) ==> s[i] in chars
    ensures forall i :: LeadingCount(s, chars) + |StripChars(s, chars)| <= i < |s| ==> s[i] in chars
    ensures StripChars(s, chars) == [] ||
      (StripChars(s, chars)[0] !in chars && StripChars(s, chars)[|StripChars(s, chars)| - 1] !in chars)
  {
    StripCharsSlice(s, chars);
    StripCharsEmpty(s, chars);
    StripCharsEnds(s, chars);
  }

  lemma StripCharsSlice(s: string, chars: set<char>)
    ensures LeadingCount(s, chars) + |StripChars(s, chars)| <= |s|
    ensures StripChars(s, chars) == s[LeadingCount(s, chars)..LeadingCount(s, chars) + |StripChars(s, chars)|]
    ensures forall i :: 0 <= i < LeadingCount(s, chars) ==> s[i] in chars
    ensures forall i :: LeadingCount(s, chars) + |StripChars(s, chars)| <= i < |s| ==> s[i] in chars
  {
    var t := TrimStart(s, chars);
    var r := TrimEnd(t, chars);
    var lo := |s| - |t|;
    assert t == s[lo..] && r == t[..|r|];
    forall i | lo + |r| <= i < |s| ensures s[i] in chars {
      assert s[i] == t[i - lo];
    }
  }

  lemma StripCharsEmpty(s: string, chars: set<char>)
    ensures StripChars(s, chars) == [] <==> forall i :: 0 <= i < |s| ==> s[i] in chars
  {
    var t := TrimStart(s, chars);
    var lo := |s| - |t|;
    if StripChars(s, chars) != [] && t != [] {
      assert t[0] !in chars && t[0] == s[lo];
    }
  }

  lemma StripCharsEnds(s: string, chars: set<char>)
    ensures StripChars(s, chars) == [] ||
      (StripChars(s, chars)[0] !in chars && StripChars(s, chars)[|StripChars(s, chars)| - 1] !in chars)
  {
    var t := TrimStart(s, chars);
    var r := TrimEnd(t, chars);
    if r != [] {
      assert r[0] == t[0];
    }
  }

  /** Stripping twice strips nothing more. */
  lemma StripIdempotent(s: string)
    ensures Strip(Strip(s)) == Strip(s)
  {
    var r := Strip(s);
    StripSpec(s);
    if r != [] {
      assert TrimStart(r, Whitespace) == r;
      assert TrimEnd(r, Whitespace) == r;
    }
  }

  /** `rstrip` with the same characters twice strips nothing more. */
  lemma TrimEndIdempotent(s: string, chars: set<char>)
    ensures TrimEnd(TrimEnd(s, chars), chars) == TrimEnd(s, chars)
  {
  }
}

=== FILE: version_catalog.dfy ===
/** Rule-set version discovery (`RulesService.get_available_versions` and
    `get_latest_version`): the digit-named sub-directories of the rules base
    directory, newest (numerically largest) first. */
module VersionCatalog {
  import opened Wrappers
  import opened Text

  /** One entry of `os.listdir(base)`, with what `os.path.isdir` says of it. */
  datatype Entry = Entry(name: string, isDir: bool)

  /** A snapshot of the rules base directory. `Missing` is a base path that
      does not exist; `Unreadable` is one whose listing raises (not a
      directory, no permission). */
  datatype Listing = Missing | Unreadable | Entries(items: seq<Entry>)

  /** A version name: a non-empty string of ASCII digits. */
  type VersionName = s: string | IsDigits(s) witness "0"

  /** The sort key `int(name)`. */
  function Key(v: VersionName): nat {
    DigitsValue(v)
  }

  predicate IsVersionEntry(e: Entry) {
    e.isDir && IsDigits(e.name)
  }

  /** The names kept by the listing loop, in listing order. */
  function VersionNames(items: seq<Entry>): (r: seq<VersionName>)
    ensures |r| <= |items|
    ensures forall n :: n in r <==> exists i :: 0 <= i < |items| && IsVersionEntry(items[i]) && items[i].name == n
  {
    if |items| == 0 then []
    else
      var rest := VersionNames(items[1..]);
      assert forall i :: 1 <= i < |items| ==> items[i] == items[1..][i - 1];
      if IsVersionEntry(items[0]) then [items[0].name] + rest else rest
  }

  /** The kept names follow the listing: the names of a concatenation are
      the names of its parts, in the same order. */
  lemma {:induction false} VersionNamesAppend(a: seq<Entry>, b: seq<Entry>)
    ensures VersionNames(a + b) == VersionNames(a) + VersionNames(b)
  {
    if |a| > 0 {
      assert (a + b)[0] == a[0] && (a + b)[1..] == a[1..] + b;
      VersionNamesAppend(a[1..], b);
    } else {
      assert a + b == b;
    }
  }

  /** One entry keeps its name exactly when it is a version directory. */
  lemma VersionNamesSingle(e: Entry)
    ensures VersionNames([e]) == if IsVersionEntry(e) then [e.name] else []
  {
    assert [e][1..] == [];
  }

  /** Newest first: keys never increase along the sequence. */
  predicate SortedDesc(vs: seq<VersionName>) {
    forall i, j :: 0 <= i < j < |vs| ==> Key(vs[i]) >= Key(vs[j])
  }

  /** Places `v` in front of the first element whose key is not larger: after
      every element with a strictly larger key, before those with an equal
      one. */
  function Insert(v: VersionName, vs: seq<VersionName>): (r: seq<VersionName>)
    requires SortedDesc(vs)
    ensures SortedDesc(r)
    ensures multiset(r) == multiset(vs) + multiset{v}
  {
    if |vs| == 0 || Key(vs[0]) <= Key(v) then
      assert forall k :: 0 <= k < |vs| ==> Key(v) >= Key(vs[k]) by {
        forall k | 0 <= k < |vs| ensures Key(v) >= Key(vs[k]) {
          assert k == 0 || Key(vs[0]) >= Key(vs[k]);
        }
      }
      ConsSorted(v, vs);
      [v] + vs
    else
      assert SortedDesc(vs[1..]) by {
        forall i, j | 0 <= i < j < |vs| - 1 ensures Key(vs[1..][i]) >= Key(vs[1..][j]) {
          assert vs[1..][i] == vs[i + 1] && vs[1..][j] == vs[j + 1];
        }
      }
      var rest := Insert(v, vs[1..]);
      HeadBounds(vs[0], vs[1..], v, rest);
      ConsSorted(vs[0], rest);
      assert vs == [vs[0]] + vs[1..];
      [vs[0]] + rest
  }

  lemma ConsSorted(head: VersionName, rest: seq<VersionName>)
    requires SortedDesc(rest)
    requires forall k :: 0 <= k < |rest| ==> Key(head) >= Key(rest[k])
    ensures SortedDesc([head] + rest)
  {
    var r := [head] + rest;
    forall i, j | 0 <= i < j < |r| ensures Key(r[i]) >= Key(r[j]) {
      assert r[j] == rest[j - 1];
      if i > 0 {
        assert r[i] == rest[i - 1];
      }
    }
  }

  /** An element no smaller than every element of `tail` and than `v` stays
      no smaller than every element of a permutation of `tail` plus `v`. */
  lemma HeadBounds(head: VersionName, tail: seq<VersionName>, v: VersionName, rest: seq<VersionName>)
    requires forall j :: 0 <= j < |tail| ==> Key(head) >= Key(tail[j])
    requires Key(head) > Key(v)
    requires multiset(rest) == multiset(tail) + multiset{v}
    ensures forall k :: 0 <= k < |rest| ==> Key(head) >= Key(rest[k])
  {
    forall k | 0 <= k < |rest|
      ensures Key(head) >= Key(rest[k])
    {
      assert rest[k] in multiset(rest);
      if rest[k] != v {
        assert rest[k] in multiset(tail);
      }
    }
  }

  /** `sorted(names, key=int, reverse=True)`: Python's sort is stable, and
      `reverse=True` keeps equal keys in their original order. */
  function SortDesc(vs: seq<VersionName>): (r: seq<VersionName>)
    ensures SortedDesc(r)
    ensures multiset(r) == multiset(vs)
  {
    if |vs| == 0 then []
    else
      assert vs == [vs[0]] + vs[1..];
      Insert(vs[0], SortDesc(vs[1..]))
  }

  /** The elements of `vs` with key `k`, in order. */
  function WithKey(vs: seq<VersionName>, k: nat): seq<VersionName> {
    if |vs| == 0 then []
    else (if Key(vs[0]) == k then [vs[0]] else []) + WithKey(vs[1..], k)
  }

  lemma {:induction false} InsertWithKey(v: VersionName, vs: seq<VersionName>, k: nat)
    requires SortedDesc(vs)
    ensures WithKey(Insert(v, vs), k) == (if Key(v) == k then [v] else []) + WithKey(vs, k)
  {
    if |vs| == 0 || Key(vs[0]) <= Key(v) {
      WithKeyCons(v, vs, k);
    } else {
      var rest := Insert(v, vs[1..]);
      assert Insert(v, vs) == [vs[0]] + rest;
      WithKeyCons(vs[0], rest, k);
      assert vs == [vs[0]] + vs[1..];
      WithKeyCons(vs[0], vs[1..], k);
      InsertWithKey(v, vs[1..], k);
      if Key(v) == k {
        assert Key(vs[0]) != k;
      }
    }
  }

  lemma WithKeyCons(x: VersionName, xs: seq<VersionName>, k: nat)
    ensures WithKey([x] + xs, k) == (if Key(x) == k then [x] else []) + WithKey(xs, k)
  {
    assert ([x] + xs)[0] == x && ([x] + xs)[1..] == xs;
  }

  /** The sort is stable: for every key, the versions with that key appear in
      the sorted result in the same order as in the input. */
  lemma {:induction false} SortDescStable(vs: seq<VersionName>, k: nat)
    ensures WithKey(SortDesc(vs), k) == WithKey(vs, k)
  {
    if |vs| > 0 {
      SortDescStable(vs[1..], k);
      InsertWithKey(vs[0], SortDesc(vs[1..]), k);
    }
  }

  /** `get_available_versions`: an absent or unreadable base directory gives
      the empty list, never an error; otherwise exactly the digit-named
      directories, largest number first. */
  function AvailableVersions(listing: Listing): (r: seq<VersionName>)
    ensures !listing.Entries? ==> r == []
    ensures listing.Entries? ==>
      forall n :: n in r <==> exists i :: 0 <= i < |listing.items| && IsVersionEntry(listing.items[i]) && listing.items[i].name == n
    ensures listing.Entries? ==> multiset(r) == multiset(VersionNames(listing.items))
    ensures SortedDesc(r)
  {
    match listing
    case Entries(items) =>
      var names := VersionNames(items);
      var r := SortDesc(names);
      assert forall n :: n in r <==> n in multiset(r);
      assert forall n :: n in names <==> n in multiset(names);
      r
    case _ => []
  }

  /** `get_latest_version`: the head of the listing, or `None` when it is
      empty; so the version with the largest number. */
  function LatestVersion(listing: Listing): (r: Option<VersionName>)
    ensures r.None? <==> AvailableVersions(listing) == []
    ensures r.Some? ==> r.value == AvailableVersions(listing)[0]
    ensures r.Some? ==> forall v :: v in AvailableVersions(listing) ==> Key(v) <= Key(r.value)
  {
    var vs := AvailableVersions(listing);
    if |vs| > 0 then Some(vs[0]) else None
  }

  /** An entry that is not a digit-named directory (a file, or a name such as
      `latest` or `v2`) changes nothing in the listing, wherever it stands. */
  lemma NonVersionEntriesIgnored(pre: seq<Entry>, e: Entry, post: seq<Entry>)
    requires !IsVersionEntry(e)
    ensures AvailableVersions(Entries(pre + [e] + post)) == AvailableVersions(Entries(pre + post))
  {
    VersionNamesSkip(pre, e, post);
  }

  lemma {:induction false} VersionNamesSkip(pre: seq<Entry>, e: Entry, post: seq<Entry>)
    requires !IsVersionEntry(e)
    ensures VersionNames(pre + [e] + post) == VersionNames(pre + post)
  {
    if |pre| == 0 {
      assert pre + [e] + post == [e] + post;
      assert ([e] + post)[1..] == post;
      assert pre + post == post;
    } else {
      VersionNamesSkip(pre[1..], e, post);
      assert (pre + [e] + post)[1..] == pre[1..] + [e] + post;
      assert (pre + post)[1..] == pre[1..] + post;
    }
  }
}

=== FILE: wrappers.dfy ===
/** Failure-carrying datatypes shared by every module of the model. */
module Wrappers {

  /** Python's `Optional[T]`: `None` or a present value. */
  datatype Option<+T> = None | Some(value: T) {
    function GetOr(default: T): T {
      match this
      case Some(v) => v
      case None => default
    }
  }

  /** The outcome of an operation that can raise: a value or the error it raised. */
  datatype Result<+R, +E> = Success(value: R) | Failure(error: E) {
    predicate IsFailure() {
      Failure?
    }

    function PropagateFailure<U>(): Result<U, E>
      requires Failure?
    {
      Failure(error)
    }

    function Extract(): R
      requires Success?
    {
      value
    }
  }

  /** The Python exception classes the modelled code raises or catches.
      `msg` is what `str(e)` gives for the exception. */
  datatype Exc =
    | ValueError(msg: string)
    | RuntimeError(msg: string)
    | FileNotFoundError(msg: string)
    | TypeError(msg: string)
    | BadRequest(msg: string)
}
